=== FILE: README.md ===
# philosophy, modelled in Dafny

`philosophy` connects SQLAlchemy to a "philosophy adapter", an application object that holds a configuration dictionary and an `extensions` registry. It does this much as Flask-SQLAlchemy connects SQLAlchemy to a Flask app. Around SQLAlchemy's own machinery it adds a few pieces of sequential decision logic, and this project models them as immutable datatypes and pure functions:

- **Table names** (`SnakeCase`, `SnakeCaseWords`, `Naming`). The derivation of `__tablename__` from the class name is modelled as a character-level rewrite. The regular expression `([A-Z]+)(?=[a-z0-9])` becomes a scan over maximal runs of capitals. Two more decisions are modelled:
  - `should_set_tablename`, evaluated over the class's method resolution order;
  - `__table_cls__`'s choice between single-table and joined-table inheritance.
- **Bind keys** (`BindMeta`, `DeclaredModel`). `BindMetaMixin` resolves a class's `__bind_key__` and stamps it into the table's `info`. `DeclaredModel` composes the steps of `DefaultMeta` in the order Python runs them when a model class is created.
- **Tables** (`Schema`). `metadata.tables` is an ordered sequence of tables, each with a key and an `info` dictionary. This module also holds `get_tables_for_bind` and the `db.Table` helper.
- **Configuration** (`Config`). The five `SQLALCHEMY_*` entries, the validation and defaults of `init_adapter`, and `_EngineConnector.get_uri`.
- **Engine options** (`EngineOptions`). The decision table of `apply_driver_hacks` and the layered merge of `get_options`.
- **Engines** (`Engines`). The per-adapter state holds one connector per bind key. Each connector has an engine cache keyed by `(uri, echo)`. Engines are tokens numbered by a construction counter on the facade.
- **Routing** (`Routing`). The bind expansion and loop of `_execute_for_all_tables` (`create_all`, `drop_all`), the table-to-engine map of `get_binds`, and the session's `get_bind`.
- **Default query class** (`QueryClass`). `_set_default_query_class` and `_wrap_with_default_query_class`.

Python exceptions and failed `assert`s are `Err` values of one `Error` datatype (module `Errors`). A Python object that an operation mutates is passed in and returned. For example, `get_engine` takes a facade and returns the facade afterwards together with the engine or the error (`Outcome`).

Where the code and its documentation differ, the model follows the code:

- The bind key is `dict_.pop("__bind_key__", None) or getattr(cls, "__bind_key__", None)`. `getattr` finds the class's own entry first, so a falsy key the class declares itself (`None` or `""`) hides an inherited one. `BindMeta.ResolveIsAttributeLookup` proves that the expression is plain attribute lookup.
- Under single-table inheritance, a subclass's own bind key is not written onto the parent's table. When `BindMetaMixin` stamps, the subclass's own `__table__` is still `None` (see `DeclaredModel.SingleTableInheritance`).
- Only the exact driver name `sqlite` takes the SQLite branch of `apply_driver_hacks`. A name such as `sqlite+pysqlite` is left untouched.

## Model

| member | source | states |
|---|---|---|
| SnakeCase.CamelToSnake | philosophy/model.py:12-19 | A derived table name never starts with `_`. |
| SnakeCase.SubFromIsRewrite | philosophy/model.py:9-19 | The run-by-run substitution equals an independent character-by-character definition. Each capital is lowercased iff it sits in a run followed by a lowercase letter or digit. An `_` goes before such a run and before its last capital when the run is longer than one. |
| SnakeCase.RunThenWord | philosophy/model.py:13-17 | A run of capitals directly followed by a word without capitals becomes `_x` (one capital) or `_xy_z` (several, split before the last). The word is kept. |
| SnakeCase.SubFromConcat | philosophy/model.py:9-19 | The rewrite never looks across a point that follows a non-capital, so it works word by word. |
| SnakeCase.AllUpperKept | philosophy/model.py:9 | A name made only of capitals has no match and is unchanged. |
| SnakeCase.UnmatchedKept | philosophy/model.py:9-19 | A name with no capital directly before a lowercase letter or digit (such as a trailing `ID`) and no leading `_` comes back unchanged. |
| SnakeCase.CamelToSnakeIdempotent | philosophy/model.py:12-19 | Applying `camel_to_snake_case` to its own output changes nothing. |
| SnakeCase.CamelToSnakeSameLetters | philosophy/model.py:12-19 | Ignoring case and underscores, the table name spells the class name letter for letter, in order. |
| SnakeCaseWords.CamelToSnakeOfWords | philosophy/model.py:12-19 | Capitalised words (`MyHappyClass`, `FooBoundModel`) become the lowercased words joined by single underscores, with no leading underscore. |
| SnakeCaseWords.CamelToSnakeOfAcronym | philosophy/model.py:12-19 | An acronym before a word (`HTTPServer`) is lowercased and split before its last capital (`http_server`). |
| Naming.ScanOwners | philosophy/model.py:42-55 | The loop over the MRO returns the verdict of the first entry that owns `__tablename__`, and true when no entry owns one. |
| Naming.ShouldSetTablename | philosophy/model.py:22-55 | A name is generated iff the class is not abstract, some strict ancestor is declarative, and the first owner of `__tablename__` (if any) asks for one. |
| Naming.FirstOwnerDecides | philosophy/model.py:42-53 | Only the first entry that owns `__tablename__` matters. Entries after it are never consulted. |
| Naming.NoOwnerGenerates | philosophy/model.py:37-55 | With no `__tablename__` anywhere in the MRO, a name is generated exactly for a non-abstract class with a declarative ancestor. |
| Naming.OwnNameKept | philosophy/model.py:49-53 | A plain name the class declares itself, without a prefix, is kept. |
| Naming.MixinNameUsed | philosophy/model.py:49-53 | A name inherited from a non-declarative mixin is used as it is. |
| Naming.SubclassOfMappedModelRenamed | philosophy/model.py:49-53 | A concrete subclass of a concrete declarative model that owns a name gets a generated name of its own. |
| Naming.GeneratedName | philosophy/model.py:104-111 | The generated name never starts with `_`. Without a prefix it is the snake-cased class name. |
| Naming.GeneratedNameWithPrefix | philosophy/model.py:108-110 | With a prefix, the name is the snake-cased prefix immediately followed by the snake-cased class name, with no separator. |
| Naming.GeneratedNameLetters | philosophy/model.py:105-110 | Up to case and underscores, the generated name spells the prefix (if any) and then the class name. |
| Naming.NamePre | philosophy/model.py:104-111 | The first half of `NameMetaMixin.__init__` changes only the class's own `__tablename__`. It sets the generated name exactly when `should_set_tablename` holds. |
| Naming.PlainModelGetsName | philosophy/model.py:104-111 | A plain concrete model with nothing declared ends up owning `__tablename__`, which is its snake-cased name unless it declares a prefix. |
| Naming.HasPrimaryKeyFrom | philosophy/model.py:140-145 | The argument loop finds a primary-key column or constraint iff one is among the arguments. |
| Naming.AncestorTableFrom | philosophy/model.py:149-153 | The loop over `__mro__[1:-1]` finds an own `__table__` iff some entry strictly between the class and `object` has one. |
| Naming.TableCls | philosophy/model.py:124-157 | A table is built iff the key is in the metadata, or an argument is a primary key, or no ancestor other than `object` owns a table. Otherwise the class's own `__tablename__` is removed and nothing else changes. |
| Naming.SingleTableInheritance | philosophy/model.py:149-157 | Without an existing key or a primary key, and under an ancestor with a table, no table is built and the class loses its own name. |
| Naming.JoinedTableInheritance | philosophy/model.py:140-145 | A primary-key argument always yields a table of its own and leaves the class unchanged. |
| Naming.NamePost | philosophy/model.py:117-122 | Only `__table__` can change. It changes only from `None` to absent, and never while the class owns `__tablename__`. |
| BindMeta.LookupBindKey | philosophy/model.py:90 | `getattr` on `__bind_key__` returns the value in the first MRO entry that has one of its own, and `None` when no entry has one. |
| BindMeta.ResolveBindKey | philosophy/model.py:90 | A truthy own key is used. With no own key, the nearest ancestor's key is used. |
| BindMeta.ResolveIsAttributeLookup | philosophy/model.py:90 | The `pop(...) or getattr(...)` expression always equals plain attribute lookup from the class itself. |
| BindMeta.OwnFalsyKeyHidesInherited | philosophy/model.py:90 | An own `__bind_key__ = None` gives no bind, whatever the ancestors declare. |
| BindMeta.InheritedKey | philosophy/model.py:90 | A class that declares no key gets the key of the nearest ancestor that declares one. |
| BindMeta.LookupTable | philosophy/model.py:94 | `getattr(cls, "__table__", None)` gives the first own `__table__` in the MRO, or nothing when that entry is `None` or no entry has one. |
| BindMeta.Stamp | philosophy/model.py:95 | The stamped table gets `bind_key` set to the bind. No other `info` entry is added, and every other entry keeps its value. Every other table is unchanged, and the order is kept. |
| BindMeta.BindPost | philosophy/model.py:94-95 | The metadata changes only when both the bind key and the looked-up table are not `None`. In that case exactly that table is stamped. |
| BindMeta.StampedTableBelongs | philosophy/model.py:94-95 | After stamping, `get_tables_for_bind` routes the stamped table to the class's bind. |
| DeclaredModel.Declare | philosophy/model.py:87-122 | Creating a model keeps the class's name, flags, prefix and bind key. It adds at most its own table key to the metadata, and a class whose table was requested never keeps a `None` `__table__`. |
| DeclaredModel.SingleTableInheritance | philosophy/model.py:94-122 | A single-table subclass ends with neither `__table__` nor `__tablename__` of its own, and the metadata is left exactly as it was. |
| DeclaredModel.JoinedTableInheritance | philosophy/model.py:94-95 | A class with a primary key gets its own table in the metadata. Its resolved bind key routes that table to its bind. |
| DeclaredModel.UnboundModelNotStamped | philosophy/model.py:94-95 | A model with no bind key writes no `bind_key`. The metadata only gains, at most, its own table, which carries the `info` of its `__table_args__`. That table goes to the bind its `info` names, and to the default database when it names none. |
| DeclaredModel.BoundModelTableInfo | philosophy/model.py:94-95 | A bound model with a primary key and a new table key appends exactly one table. It keeps every `info` entry of its `__table_args__` except `bind_key`, which the resolved bind key overrides. |
| Schema.TablesFor | philosophy/philosophy.py:393-399 | The tables returned for a bind are exactly the metadata's tables whose `bind_key` equals it. |
| Schema.TablesForConcat | philosophy/philosophy.py:393-399 | The filter keeps metadata order: it distributes over concatenation. |
| Schema.BindsPartitionTables | philosophy/philosophy.py:397 | A table is returned for at most one bind key. |
| Schema.GetTablesForBind | philosophy/philosophy.py:393-399 | The single pass over `metadata.tables` returns the filtered tables in metadata order. |
| Schema.MakeTable | philosophy/philosophy.py:39-45 | `info` keeps every caller entry and always has a `bind_key` (`None` unless given). The metadata is inserted after the name exactly when the second argument is a column. |
| Schema.MadeTableDefaultsToDefaultBind | philosophy/philosophy.py:42-44 | A table made without a bind key belongs to the default bind. |
| Schema.MakeTableKeepsArgs | philosophy/philosophy.py:40-41 | `db.Table` adds no argument except the metadata. |
| EngineOptions.ApplyDriverHacks | philosophy/philosophy.py:267-304 | The hacks never change the driver or database and never remove an option. Every existing option other than `poolclass` and `connect_args` keeps its value. They fail exactly for in-memory SQLite with a zero pool size or a non-dict `connect_args`. |
| EngineOptions.MysqlDefaults | philosophy/philosophy.py:276-280 | With a mutable URL query, MySQL gets `charset=utf8`, `pool_size=10` and `pool_recycle=7200`, each only when absent. `mysql+gaerdbms` gets no pool settings. |
| EngineOptions.ApplyDriverHacksAsWritten | philosophy/philosophy.py:276-277 | Against an immutable URL query, the hacks fail exactly for every MySQL driver and on the SQLite errors. Wherever they succeed, they agree with the intended hacks. |
| EngineOptions.MysqlFailsAsWritten | philosophy/philosophy.py:276-280 | Every MySQL URL fails as written, while the intended hacks succeed and set both pool defaults. |
| EngineOptions.PyMysqlUrlFailsAsWritten | philosophy/philosophy.py:276-280 | For `mysql+pymysql` with fresh options, the written code raises and the intended code sets a pool of 10. |
| EngineOptions.InMemorySqlite | philosophy/philosophy.py:283-297 | In-memory SQLite fails iff the pool size equals 0 (or `False`). Otherwise it gets a static pool and `check_same_thread=False`, and the caller's other `connect_args` are kept. |
| EngineOptions.FileSqlite | philosophy/philosophy.py:298-304 | File SQLite gets a null pool iff the pool size is falsy. Otherwise the options are untouched. |
| EngineOptions.OtherDriversUntouched | philosophy/philosophy.py:276-281 | Any other driver name, including `sqlite+pysqlite`, leaves the URL and options unchanged. |
| EngineOptions.DriverHacksIdempotent | philosophy/philosophy.py:267-304 | Applying the hacks to their own output changes nothing more. |
| EngineOptions.FreshOptionsNeverFail | philosophy/philosophy.py:125-127 | On the fresh empty dictionary `get_options` passes in, the hacks never fail. |
| EngineOptions.GetOptions | philosophy/philosophy.py:124-138 | The merged options hold exactly the hack defaults, `echo` if truthy, the configured options and the constructor options. |
| EngineOptions.GetOptionsPrecedence | philosophy/philosophy.py:124-138 | Each option's value comes from the highest layer that sets it: constructor, then configuration, then a truthy `echo`, then the hacks. |
| EngineOptions.FalsyEchoOmitted | philosophy/philosophy.py:128-129 | A falsy `echo` is not passed to the engine. |
| Config.InitConfig | philosophy/philosophy.py:251-263 | The adapter is rejected iff neither the URI nor the binds is truthy. Otherwise every entry is present and every entry that was set keeps its value. |
| Config.InitConfigDefaults | philosophy/philosophy.py:259-263 | Absent entries get `None`, `None`, `False`, `False` and `{}`. |
| Config.InitConfigIdempotent | philosophy/philosophy.py:251-263 | Initialising twice gives the configuration of the first time. |
| Config.GetUri | philosophy/philosophy.py:99-107 | The default bind reads the URI entry and fails only when it is absent. A named bind returns exactly its configured URI and fails iff it is not configured. |
| Config.BindKeys | philosophy/philosophy.py:233 | The listed bind keys are distinct and are exactly the configured ones. |
| Config.ConfiguredKeysResolve | philosophy/philosophy.py:99-107 | A bind key resolves to a URI iff it is in the bind list. |
| Engines.ConnectorGetEngine | philosophy/philosophy.py:109-122 | A current `(uri, echo)` returns the cached engine and creates nothing. Otherwise exactly one engine is created with the next serial, and it becomes the cache for the current `(uri, echo)`. It fails iff the URI or echo is missing, or (on a miss) the URL does not parse or the engine options are absent. |
| Engines.NewEngineFromOptions | philosophy/philosophy.py:116-118 | A new engine is built from the parsed URI and the merged options. |
| Engines.InitAdapter | philosophy/philosophy.py:247-265 | `init_adapter` fails iff the configuration is rejected. Otherwise it stores the completed configuration and registers an empty state. |
| Engines.SetAdapter | philosophy/philosophy.py:224-227 | The adapter is stored even when initialising it fails. A stored adapter is the initialised one, and nothing else about the facade changes. |
| Engines.NewFacade | philosophy/philosophy.py:202-222 | A new facade has built no engines and uses `engine_options or {}`. Its adapter, if any, starts with no connectors. |
| Engines.GetAdapter | philosophy/philosophy.py:346-354 | The facade's own adapter is returned, and a missing one is an error. |
| Engines.GetState | philosophy/philosophy.py:80-87 | The state is returned iff `init_adapter` registered it. |
| Engines.MakeConnector | philosophy/philosophy.py:401-403 | A new connector is for the given bind and has nothing cached. |
| Engines.GetEngine | philosophy/philosophy.py:356-368 | Connectors are created only for the requested bind, one per key, and every other connector is unchanged. At most one engine is created, with the next serial, and the returned engine is what the bind's connector caches. Connectors stay keyed by their bind, and cached serials stay below the counter. For a registered adapter, the call fails exactly when the connector's `get_engine` fails, with the same error. The connector asked (the stored one, or a fresh one) is stored anyway, and no engine is counted. |
| Engines.GetEngineFailsAgain | philosophy/philosophy.py:356-368 | A failed `get_engine` fails again in the same way in the state it leaves, and changes nothing more. |
| Engines.GetEngineHits | philosophy/philosophy.py:356-368 | After a successful `get_engine`, the bind's cache is current and holds the returned engine. |
| Engines.HitIsCached | philosophy/philosophy.py:109-114 | With a current cache, `get_engine` returns the cached engine and changes nothing. |
| Engines.GetEngineKeepsHits | philosophy/philosophy.py:356-368 | `get_engine` for any bind keeps every other current cache and its engine. |
| Engines.GetEngineKeepsAllHits | philosophy/philosophy.py:356-368 | The same holds for all binds at once. |
| Engines.RepeatedGetEngineCached | philosophy/philosophy.py:362-368 | A repeated `get_engine` for the same bind returns the same engine and creates nothing. |
| Engines.NewEngineIsFresh | philosophy/philosophy.py:116-118 | A cache miss yields an engine distinct from every engine cached so far. |
| Engines.EchoChangeRebuilds | philosophy/philosophy.py:112-120 | Changing `SQLALCHEMY_ECHO` makes the next `get_engine` for that bind create a new engine. |
| Routing.AllBindKeys | philosophy/philosophy.py:233 | `"__all__"` lists the default bind first, then every configured key in order. |
| Routing.AllBindKeysResolve | philosophy/philosophy.py:233 | That list holds each configured key exactly once, and `get_uri` succeeds for every key in it. A configured key gives its URI. The default bind gives the URI entry, which is `None` when only binds are configured. |
| Routing.ExpandBinds | philosophy/philosophy.py:232-237 | `"__all__"` expands to every bind, any other single key to itself, and a list to itself. |
| Routing.RunOps | philosophy/philosophy.py:239-245 | The loop makes one call per bind when it does not fail, and fewer when it does. The calls made before a failure are reported with the error. Every current cache is kept, and connectors stay keyed by their bind. |
| Routing.RunOpsStopsAtFailure | philosophy/philosophy.py:239-245 | The loop stops only at a bind whose engine cannot be had: `get_engine` for the bind it stopped at fails again with the reported error, and changes nothing. |
| Routing.RunOpsHitsNeverFail | philosophy/philosophy.py:239-245 | When every visited bind's cache is current, the loop runs to the end. |
| Routing.RunOpsCalls | philosophy/philosophy.py:239-245 | Call `i` performs the operation on bind `i`'s tables, with the engine that bind's connector holds at the end. This holds also for the calls made before a failure. |
| Routing.ExecuteForAllTables | philosophy/philosophy.py:229-245 | Without an adapter it fails before any call is made. Otherwise it runs the loop over the expanded binds. |
| Routing.CreateAllVisitsEveryBind | philosophy/philosophy.py:306-308 | `create_all()` visits the default bind and every configured bind in order. It creates each bind's tables on that bind's cached engine. It fails iff it stops short, and then the binds before the failing one have had their tables created. It stops only at a bind whose `get_engine` fails, and never when every bind's cache is current. |
| Routing.TablesOfBinds | philosophy/philosophy.py:239-243 | A table is covered by the loop iff its bind key is one of the visited binds. |
| Routing.BindOf | philosophy/philosophy.py:397 | A table's bind is exactly the bind `get_tables_for_bind` returns it for. |
| Routing.RoutesStep | philosophy/philosophy.py:340-343 | One round of `get_binds` extends the table-to-engine map to that bind's tables. Entries already made keep routing to their bind's engine. |
| Routing.GetBinds | philosophy/philosophy.py:333-344 | `get_binds` maps exactly the tables whose bind is the default or a configured key, each to its bind's cached engine. Tables of unconfigured keys are absent. On every return the configuration is unchanged, and every current cache keeps its engine. With an adapter whose binds all have current caches, it succeeds. When it fails, `get_engine` fails with that error for some listed bind in the state it leaves. |
| Routing.GetBind | philosophy/philosophy.py:488-506 | A session sends a table with a string `bind_key` to that bind's `get_engine`. A `None` key or no mapper goes to the default bind. |
| Routing.GetBindAgreesWithGetBinds | philosophy/philosophy.py:488-506 | Once `get_binds` has run, a session routes each mapped table to the engine the map gives it and creates nothing. For default-bind tables, that is the default engine. |
| QueryClass.SetDefaultQueryClass | philosophy/philosophy.py:50-52 | `query_class` is always present afterwards, and a caller's value is never overridden. |
| QueryClass.SetDefaultQueryClassKeeps | philosophy/philosophy.py:50-52 | A second default changes nothing. |
| QueryClass.WrapAsWritten | philosophy/philosophy.py:55-66 | As written, every argument is kept and `query_class` is added. A string backref passes unchanged. A `backref(...)` tuple keeps its name and its keyword arguments, and gains `query_class`. Any other modelled backref value fails. |
| QueryClass.StringBackrefLosesQueryClass | philosophy/philosophy.py:59-63 | As written, a string backref reaches SQLAlchemy unchanged and without a query class. |
| QueryClass.Wrap | philosophy/philosophy.py:55-66 | The corrected wrapper fails on the same inputs as the written one. |
| QueryClass.WrapSetsQueryClass | philosophy/philosophy.py:55-66 | With the correction, both the relationship and its backref carry a query class: the caller's if given, the default otherwise. Every other argument passes through. |
| QueryClass.WrapAgreesOffStrings | philosophy/philosophy.py:59-63 | The correction changes only string backrefs. |
| QueryClass.WrapIdempotent | philosophy/philosophy.py:55-66 | Wrapping twice is wrapping once. |

## Left out

- `philosophy/mixin.py` copies the SQLAlchemy module namespace onto the facade by reflection, so the module is not modelled. `_include_sqlalchemy` is modelled only for the two wrappers it installs.
- Engine and session construction (`create_engine`, `create_async_engine`, `sessionmaker`, `scoped_session`, the session constructors) and `sa.Table` are not modelled. An engine is a token with a serial number, the URL and the options it was built from, and `make_url` is a parameter.
- The locks in `get_engine` and `_EngineConnector.get_engine` only serialise access, and the model is sequential.
- The async session and engine variants are not modelled, because they mirror the sync logic.
- `_timer`, `_QueryProperty`, `Model.__repr__`, `Philosophy.__repr__`, the `Query` property, `make_declarative_base` and `create_scoped_session` are not modelled. They are ORM wiring or platform selection.
- `AutoBigIntegerIdentifierMetaMixin` depends on `utils.has_primary_key`, which is not part of this model, and `DefaultMeta` does not include it.
- `print(arg)` in `__table_cls__` is output only.
- SQLAlchemy's `_get_table_key` and the collection of table arguments from the class body are done by SQLAlchemy. The model takes the key and the arguments as parameters.
- SQLAlchemy's mapping step is reduced to what the mixins rely on. It asks `__table_cls__` for a table when a concrete class without its own `__table__` has a table name in its MRO. The table it stores is an existing one with that key, or a new one whose `info` is the `info` keyword of `__table_args__`. No other table keyword is modelled.
- QueryClass.WrapAsWritten: a backref is a string, a `(name, kwargs)` tuple or some other object. Python's `backref[1]` also works on any other subscriptable pair, such as a list `["parent", {}]`. The model treats every such non-tuple value as the other object, which fails with `BackrefNotSubscriptable`. The same holds for `QueryClass.Wrap`.
- A URL's `query` is modelled as a plain map that the MySQL hack extends, which is the behaviour the code was written for. `EngineOptions.ApplyDriverHacksAsWritten` models the immutable query of SQLAlchemy 1.4 and later (see Findings).
- EngineOptions.MysqlDefaults: states the intended MySQL defaults. With the SQLAlchemy releases this package imports from (1.4 and later), `sa_url.query.setdefault` raises `TypeError`. So lines 279-280 are never reached, and `get_engine` fails for every `mysql*` bind.
- Engines.GetEngine: uses the intended driver hacks (`EngineOptions.ApplyDriverHacks`), so it succeeds for `mysql*` binds. With SQLAlchemy 1.4 and later, the Python code raises `TypeError` for them instead (see Findings).
- When `apply_driver_hacks` raises, it has already mutated its arguments. The model returns only the error.
- `get_engine` with a `bind_key` that is neither `None` nor a string (reached from a session's `get_bind`) stores a connector under that value before `get_uri` fails. The model returns the error and stores nothing, because connectors are keyed by optional strings.
- The `bind` argument of `create_all`/`drop_all` can be any iterable. The model takes a sequence (`Routing.BindArg`).
- Configuration entries are typed: the URI is a string or `None`, the binds a dictionary of strings or `None`, and the engine options a dictionary. Values of other types are not modelled.
- `Engines.ConnectorGetEngine` compares `echo` structurally. Python's `False == 0` in the comparison with `_connected_for` is not modelled, so switching `SQLALCHEMY_ECHO` between `False` and `0` rebuilds the engine in the model but not in Python.
- The pool-size error of `apply_driver_hacks` can be reached only by calling it directly, because `get_options` always passes it an empty dictionary (`EngineOptions.FreshOptionsNeverFail`).
- `Routing.CreateAll` and `Routing.DropAll` differ only in the operation passed to `_execute_for_all_tables`. `Routing.CreateAllVisitsEveryBind` is stated for `create_all`, and `Routing.RunOpsCalls` covers both.

## Findings

| source | as written | input that shows it | evidently intended | confidence | as-written member | corrected member |
|---|---|---|---|---|---|---|
| philosophy/philosophy.py:59-63 | A string backref is turned into a local tuple `(backref, {})`, and the tuple's dictionary gets the query class. The tuple is then discarded, so the wrapped function receives the bare string. | `db.relationship("Child", backref="parent")` | Store the tuple back into `kwargs["backref"]`, so the backref also gets the default query class. | not executed | QueryClass.StringBackrefLosesQueryClass | QueryClass.WrapSetsQueryClass |
| philosophy/philosophy.py:276-277 | The MySQL branch calls `setdefault` on `sa_url.query`. This package needs SQLAlchemy 1.4 or later (`sqlalchemy.ext.asyncio`, `sqlalchemy.orm.decl_api`), and there that query is an immutable dictionary, so the call raises `TypeError`. | any `mysql*` URL, e.g. `mysql+pymysql://host/app` | Build a new URL with `charset=utf8` added to its query, then set the pool defaults. | not executed; rests on SQLAlchemy 1.4's immutable URL query | EngineOptions.MysqlFailsAsWritten | EngineOptions.MysqlDefaults |

=== FILE: bind_meta.dfy ===
/** `BindMetaMixin.__init__`: which database a model class is bound to, and
  how that choice is recorded on its table.
 */
module BindMeta {
  import opened Errors
  import opened Classes
  import opened Schema

  /** Python truthiness of a bind key: `None` and `""` are false. */
  predicate Truthy(k: Option<string>)
  {
    k.Some? && k.value != ""
  }

  /** `mro[i]` is the first entry from `k` on whose own `__dict__` holds `__bind_key__`. */
  predicate FirstBindFrom(mro: Mro, k: nat, i: int)
  {
    k <= i < |mro| && mro[i].bindKey.BindKeyIs?
    && forall j :: k <= j < i ==> mro[j].bindKey.NoBindKey?
  }

  /** `getattr(cls, "__bind_key__", None)`, searching the MRO from position `k`. */
  function LookupBindKey(mro: Mro, k: nat): (r: Option<string>)
    requires k <= |mro|
    ensures forall i :: FirstBindFrom(mro, k, i) ==> r == mro[i].bindKey.key
    ensures r.Some? ==> exists i :: FirstBindFrom(mro, k, i)
    decreases |mro| - k
  {
    if k == |mro| then None
    else if mro[k].bindKey.BindKeyIs? then
      assert FirstBindFrom(mro, k, k);
      mro[k].bindKey.key
    else
      assert forall i :: FirstBindFrom(mro, k, i) <==> FirstBindFrom(mro, k + 1, i);
      var r := LookupBindKey(mro, k + 1);
      assert r.Some? ==> exists i :: FirstBindFrom(mro, k, i) by {
        if r.Some? {
          var i :| FirstBindFrom(mro, k + 1, i);
          assert FirstBindFrom(mro, k, i);
        }
      }
      r
  }

  /** `dict_.pop("__bind_key__", None) or getattr(cls, "__bind_key__", None)`:
    the class's own key when it is truthy, the attribute lookup otherwise. */
  function ResolveBindKey(mro: Mro): (r: Option<string>)
    ensures mro[0].bindKey.BindKeyIs? && Truthy(mro[0].bindKey.key) ==> r == mro[0].bindKey.key
    ensures mro[0].bindKey.NoBindKey? ==> r == LookupBindKey(mro, 1)
  {
    var own := if mro[0].bindKey.BindKeyIs? then mro[0].bindKey.key else None;
    if Truthy(own) then own else LookupBindKey(mro, 0)
  }

  /** The `or` adds nothing: the key is exactly what attribute lookup finds.
    In particular a falsy key the class declares itself (`None` or `""`)
    hides an inherited one. */
  lemma ResolveIsAttributeLookup(mro: Mro)
    ensures ResolveBindKey(mro) == LookupBindKey(mro, 0)
  {
    if mro[0].bindKey.BindKeyIs? {
      assert FirstBindFrom(mro, 0, 0);
    }
  }

  lemma OwnFalsyKeyHidesInherited(mro: Mro)
    requires mro[0].bindKey == BindKeyIs(None)
    ensures ResolveBindKey(mro) == None
  {
    ResolveIsAttributeLookup(mro);
    assert FirstBindFrom(mro, 0, 0);
  }

  /** A class that declares no key inherits the nearest ancestor's. */
  lemma InheritedKey(mro: Mro, i: nat)
    requires FirstBindFrom(mro, 0, i) && 0 < i
    ensures ResolveBindKey(mro) == mro[i].bindKey.key
  {
    ResolveIsAttributeLookup(mro);
  }

  /** `mro[i]` is the first entry from `k` on whose own `__dict__` holds `__table__`. */
  predicate FirstTableFrom(mro: Mro, k: nat, i: int)
  {
    k <= i < |mro| && !mro[i].table.NoTable?
    && forall j :: k <= j < i ==> mro[j].table.NoTable?
  }

  /** `getattr(cls, "__table__", None)`: the key of the table found, if it is not `None`. */
  function LookupTable(mro: Mro, k: nat): (r: Option<string>)
    requires k <= |mro|
    ensures forall i :: FirstTableFrom(mro, k, i) ==>
              r == (if mro[i].table.HasTable? then Some(mro[i].table.key) else None)
    ensures r.Some? ==> exists i :: FirstTableFrom(mro, k, i)
    decreases |mro| - k
  {
    if k == |mro| then None
    else if !mro[k].table.NoTable? then
      assert FirstTableFrom(mro, k, k);
      if mro[k].table.HasTable? then Some(mro[k].table.key) else None
    else
      assert forall i :: FirstTableFrom(mro, k, i) <==> FirstTableFrom(mro, k + 1, i);
      var r := LookupTable(mro, k + 1);
      assert r.Some? ==> exists i :: FirstTableFrom(mro, k, i) by {
        if r.Some? {
          var i :| FirstTableFrom(mro, k + 1, i);
          assert FirstTableFrom(mro, k, i);
        }
      }
      r
  }

  /** `table.info["bind_key"] = bind` on the table with key `key`. */
  function Stamp(md: Metadata, key: string, bind: string): (r: Metadata)
    ensures |r| == |md|
    ensures forall i :: 0 <= i < |md| ==> r[i].key == md[i].key
    ensures forall i :: 0 <= i < |md| && md[i].key == key ==>
              BindKeyOf(r[i]) == StrVal(bind)
              && r[i].info.Keys == md[i].info.Keys + {BindKeyEntry}
              && forall e :: e in md[i].info && e != BindKeyEntry ==> r[i].info[e] == md[i].info[e]
    ensures forall i :: 0 <= i < |md| && md[i].key != key ==> r[i] == md[i]
  {
    seq(|md|, i requires 0 <= i < |md| =>
      if md[i].key == key then md[i].(info := md[i].info[BindKeyEntry := StrVal(bind)]) else md[i])
  }

  /** The end of `BindMetaMixin.__init__`, once SQLAlchemy has mapped the
    class: the resolved key is written into the info of the table attribute
    lookup finds, provided both are not `None`. */
  function BindPost(mro: Mro, bind: Option<string>, md: Metadata): (r: Metadata)
    ensures bind.None? || LookupTable(mro, 0).None? ==> r == md
    ensures bind.Some? && LookupTable(mro, 0).Some? ==> r == Stamp(md, LookupTable(mro, 0).value, bind.value)
  {
    match (bind, LookupTable(mro, 0))
    case (Some(b), Some(t)) => Stamp(md, t, b)
    case _ => md
  }

  /** After stamping, the stamped table is routed to the class's bind. */
  lemma StampedTableBelongs(md: Metadata, key: string, bind: string, t: Table)
    requires t in Stamp(md, key, bind) && t.key == key
    ensures BelongsTo(t, Some(bind))
  {
  }
}

=== FILE: classes.dfy ===
/** Model classes as the metaclass mixins see them.

  A class is described by the entries of its own `__dict__` that the mixins
  read or write, plus whether its metaclass is declarative.  A method
  resolution order (`__mro__`) is a non-empty sequence of such descriptors:
  the class itself first, `object` last.
 */
module Classes {
  import opened Errors

  /** The class's own `__tablename__` entry. */
  datatype TableNameAttr =
    | NoTableName             // not in the class's own __dict__
    | PlainName(name: string) // a string
    | DeclaredAttr            // a declared_attr computing the name

  /** The class's own `__table__` entry. */
  datatype TableAttr =
    | NoTable                 // not in the class's own __dict__
    | NullTable               // present and None
    | HasTable(key: string)   // the table with this key in the metadata

  /** The class's own `__bind_key__` entry; its value may be `None`. */
  datatype BindAttr =
    | NoBindKey
    | BindKeyIs(key: Option<string>)

  datatype ClassDesc = ClassDesc(
    name: string,                // __name__
    declarative: bool,           // isinstance(cls, DeclarativeMeta)
    isAbstract: bool,            // __dict__.get("__abstract__", False) is truthy
    tablename: TableNameAttr,
    prefix: Option<string>,      // own __table_prefix__, if any
    table: TableAttr,
    bindKey: BindAttr)

  type Mro = s: seq<ClassDesc> | |s| >= 1 witness [ClassDesc("object", false, false, NoTableName, None, NoTable, NoBindKey)]

  predicate OwnsTablename(c: ClassDesc)
  {
    c.tablename != NoTableName
  }

  /** `mro[0]` replaced by `c`: the class after one of its own attributes changed. */
  function WithSelf(mro: Mro, c: ClassDesc): (r: Mro)
    ensures |r| == |mro| && r[0] == c && r[1..] == mro[1..]
  {
    [c] + mro[1..]
  }
}

=== FILE: config.dfy ===
/** The adapter's configuration dictionary, the validation and defaults of
  `init_adapter`, and the URI lookup of `_EngineConnector.get_uri`.
 */
module Config {
  import opened Errors
  import opened EngineOptions

  /** A configuration entry: absent from the dictionary, or set to a value. */
  datatype Slot<+T> = Unset | Set(value: T)

  /** `SQLALCHEMY_BINDS` as a dictionary from bind key to URI: its keys in
    insertion order, and the URI of each. */
  datatype BindsDict = BindsDict(order: seq<string>, uris: map<string, string>)

  predicate ValidBinds(b: BindsDict)
  {
    (forall i, j :: 0 <= i < j < |b.order| ==> b.order[i] != b.order[j])
    && (forall k :: k in b.uris ==> k in b.order)
    && (forall i :: 0 <= i < |b.order| ==> b.order[i] in b.uris)
  }

  type Binds = b: BindsDict | ValidBinds(b) witness BindsDict([], map[])

  const UriKey: string := "SQLALCHEMY_DATABASE_URI"
  const BindsKey: string := "SQLALCHEMY_BINDS"
  const EchoKey: string := "SQLALCHEMY_ECHO"
  const TrackKey: string := "SQLALCHEMY_TRACK_MODIFICATIONS"
  const EngineOptionsKey: string := "SQLALCHEMY_ENGINE_OPTIONS"

  /** The five entries the adapter reads; the URI and the binds may be `None`. */
  datatype Config = Config(
    uri: Slot<Option<string>>,
    binds: Slot<Option<Binds>>,
    echo: Slot<OptVal>,
    trackModifications: Slot<OptVal>,
    engineOptions: Slot<Options>)

  const EmptyConfig: Config := Config(Unset, Unset, Unset, Unset, Unset)

  /** `config.get("SQLALCHEMY_DATABASE_URI")` is truthy. */
  predicate HasUri(c: Config)
  {
    c.uri.Set? && c.uri.value.Some? && c.uri.value.value != ""
  }

  /** `config.get("SQLALCHEMY_BINDS")` is truthy (a non-empty dictionary). */
  predicate HasBinds(c: Config)
  {
    c.binds.Set? && c.binds.value.Some? && |c.binds.value.value.order| != 0
  }

  function SetDefaultSlot<T>(s: Slot<T>, v: T): (r: Slot<T>)
    ensures r.Set?
    ensures s.Set? ==> r == s
  {
    if s.Set? then s else Set(v)
  }

  /** The validation and `setdefault`s of `init_adapter`. */
  function InitConfig(c: Config): (r: Result<Config>)
    ensures r.Err? <==> !HasUri(c) && !HasBinds(c)
    ensures r.Err? ==> r.error == NoUriOrBinds
    ensures r.Ok? ==> Complete(r.value)
    ensures r.Ok? ==> Extends(c, r.value)
  {
    if !(HasUri(c) || HasBinds(c)) then Err(NoUriOrBinds)
    else Ok(Config(
      SetDefaultSlot(c.uri, None),
      SetDefaultSlot(c.binds, None),
      SetDefaultSlot(c.echo, BoolOpt(false)),
      SetDefaultSlot(c.trackModifications, BoolOpt(false)),
      SetDefaultSlot(c.engineOptions, map[])))
  }

  /** Every entry the adapter reads is present. */
  predicate Complete(c: Config)
  {
    c.uri.Set? && c.binds.Set? && c.echo.Set? && c.trackModifications.Set? && c.engineOptions.Set?
  }

  /** `d` keeps every entry `c` has. */
  predicate Extends(c: Config, d: Config)
  {
    (c.uri.Set? ==> d.uri == c.uri) && (c.binds.Set? ==> d.binds == c.binds)
    && (c.echo.Set? ==> d.echo == c.echo)
    && (c.trackModifications.Set? ==> d.trackModifications == c.trackModifications)
    && (c.engineOptions.Set? ==> d.engineOptions == c.engineOptions)
  }

  /** The entries that were absent get their documented defaults. */
  lemma InitConfigDefaults(c: Config)
    requires HasUri(c) || HasBinds(c)
    ensures var d := InitConfig(c).value;
            (c.uri.Unset? ==> d.uri == Set(None))
            && (c.binds.Unset? ==> d.binds == Set(None))
            && (c.echo.Unset? ==> d.echo == Set(BoolOpt(false)))
            && (c.trackModifications.Unset? ==> d.trackModifications == Set(BoolOpt(false)))
            && (c.engineOptions.Unset? ==> d.engineOptions == Set(map[]))
  {
  }

  /** Initialising an adapter twice leaves its configuration as the first
    time did. */
  lemma InitConfigIdempotent(c: Config)
    requires InitConfig(c).Ok?
    ensures InitConfig(InitConfig(c).value) == InitConfig(c)
  {
  }

  /** `get_uri()`: for the default bind (`None`), `config["SQLALCHEMY_DATABASE_URI"]`;
    for a named bind, its entry in `config.get("SQLALCHEMY_BINDS") or ()`. */
  function GetUri(c: Config, bind: Option<string>): (r: Result<Option<string>>)
    ensures bind.None? ==> (r.Ok? <==> c.uri.Set?) && (r.Ok? ==> r.value == c.uri.value)
    ensures bind.None? && r.Err? ==> r.error == MissingConfig(UriKey)
    ensures bind.Some? ==> (r.Ok? <==> bind.value in ConfiguredBinds(c))
    ensures bind.Some? && r.Ok? ==> r.value == Some(c.binds.value.value.uris[bind.value])
    ensures bind.Some? && r.Err? ==> r.error == UnknownBind(bind.value)
  {
    match bind
    case None => if c.uri.Set? then Ok(c.uri.value) else Err(MissingConfig(UriKey))
    case Some(k) =>
      if c.binds.Set? && c.binds.value.Some? && k in c.binds.value.value.uris
      then Ok(Some(c.binds.value.value.uris[k]))
      else Err(UnknownBind(k))
  }

  /** `list(config.get("SQLALCHEMY_BINDS") or ())`: the configured keys, in order. */
  function BindKeys(c: Config): (r: seq<string>)
    ensures forall i, j :: 0 <= i < j < |r| ==> r[i] != r[j]
    ensures forall k :: k in r <==> k in ConfiguredBinds(c)
  {
    if c.binds.Set? && c.binds.value.Some? then c.binds.value.value.order else []
  }

  /** The keys of `SQLALCHEMY_BINDS`, as a set. */
  function ConfiguredBinds(c: Config): set<string>
  {
    if c.binds.Set? && c.binds.value.Some? then c.binds.value.value.uris.Keys else {}
  }

  /** Every configured key resolves, and nothing else does. */
  lemma ConfiguredKeysResolve(c: Config, k: string)
    ensures GetUri(c, Some(k)).Ok? <==> k in BindKeys(c)
  {
  }
}

=== FILE: declared_model.dfy ===
/** `DefaultMeta`: the three metaclass steps composed, in the order Python
  runs them when a model class is created.

  1. `NameMetaMixin.__init__` may set the class's own `__tablename__`.
  2. `BindMetaMixin.__init__` resolves the bind key (before mapping).
  3. SQLAlchemy's `DeclarativeMeta.__init__` maps the class.  For a
     non-abstract class with no `__table__` of its own and a table name
     somewhere in its MRO it calls `__table_cls__` and stores the result as
     the class's own `__table__` (`None` when no table was built).  A table
     built for a key already in the metadata is that existing table;
     otherwise a new table is added whose `info` is the `info` keyword of
     the class's `__table_args__` (empty when there is none).
  4. `BindMetaMixin.__init__` stamps the bind key on the table.
  5. `NameMetaMixin.__init__` deletes a `None` `__table__`.

  Step 3 is SQLAlchemy's behaviour, reduced to the part these mixins rely on.
 */
module DeclaredModel {
  import opened Errors
  import opened Classes
  import opened Schema
  import opened Naming
  import opened BindMeta

  /** SQLAlchemy asks `__table_cls__` for a table. */
  predicate TableRequested(mro: Mro)
  {
    !mro[0].isAbstract && mro[0].table == NoTable
    && exists i :: 0 <= i < |mro| && OwnsTablename(mro[i])
  }

  /** `sa.Table(...)` for `key`: the existing table, or a new one with the
    given `info` appended. */
  function EnsureTable(md: Metadata, key: string, tableInfo: Info): (r: Metadata)
    ensures Keys(r) == Keys(md) + {key}
    ensures md <= r
    ensures key in Keys(md) ==> r == md
  {
    if key in Keys(md) then md else md + [Table(key, tableInfo)]
  }

  datatype Declared = Declared(cls: ClassDesc, md: Metadata)

  /** The class and the metadata after SQLAlchemy has mapped the class (step 3). */
  function Mapped(mro: Mro, key: string, args: seq<TableArg>, tableInfo: Info, md: Metadata): (d: Declared)
  {
    if !TableRequested(mro) then Declared(mro[0], md)
    else
      var out := TableCls(mro, key, md, args);
      if out.built then Declared(out.cls.(table := HasTable(key)), EnsureTable(md, key, tableInfo))
      else Declared(out.cls.(table := NullTable), md)
  }

  /** Creating a model class whose MRO (with the class itself first) is
    `mro`; `key` is the table key SQLAlchemy derives for it, `args` the
    table arguments it collects from the class body and `tableInfo` the
    `info` keyword of its `__table_args__`. */
  function Declare(mro: Mro, key: string, args: seq<TableArg>, tableInfo: Info, md: Metadata): (d: Declared)
    ensures d.cls.name == mro[0].name && d.cls.declarative == mro[0].declarative
    ensures d.cls.isAbstract == mro[0].isAbstract && d.cls.prefix == mro[0].prefix
    ensures d.cls.bindKey == mro[0].bindKey
    ensures Keys(md) <= Keys(d.md) <= Keys(md) + {key}
    ensures TableRequested(WithSelf(mro, NamePre(mro))) ==> d.cls.table != NullTable
  {
    var named := WithSelf(mro, NamePre(mro));
    var bind := ResolveBindKey(named);
    var mapped := Mapped(named, key, args, tableInfo, md);
    var stamped := BindPost(WithSelf(mro, mapped.cls), bind, mapped.md);
    Declared(NamePost(mapped.cls), stamped)
  }

  /** Single-table inheritance: no key in the metadata, no primary key in
    the arguments and an ancestor with a table.  The class ends with neither
    a `__table__` nor a `__tablename__` of its own (it uses its parent's), and
    the metadata is left exactly as it was: when the bind key is stamped the
    class's own `__table__` is still `None`, so the inherited table's `info`
    is not touched even when the subclass declares a bind key. */
  lemma SingleTableInheritance(mro: Mro, key: string, args: seq<TableArg>, tableInfo: Info, md: Metadata)
    requires TableRequested(WithSelf(mro, NamePre(mro)))
    requires !BuildsTable(WithSelf(mro, NamePre(mro)), key, md, args)
    ensures Declare(mro, key, args, tableInfo, md).cls.table == NoTable
    ensures !OwnsTablename(Declare(mro, key, args, tableInfo, md).cls)
    ensures Declare(mro, key, args, tableInfo, md).md == md
  {
    var named := WithSelf(mro, NamePre(mro));
    var mapped := Mapped(named, key, args, tableInfo, md);
    assert mapped.cls.table == NullTable;
    assert FirstTableFrom(WithSelf(mro, mapped.cls), 0, 0);
  }

  /** Joined-table inheritance (or any class declaring a primary key): the
    class gets its own table, the table is in the metadata, and a resolved
    bind key routes that table to its bind. */
  lemma JoinedTableInheritance(mro: Mro, key: string, args: seq<TableArg>, tableInfo: Info, md: Metadata, i: nat)
    requires TableRequested(WithSelf(mro, NamePre(mro)))
    requires i < |args| && IsPrimaryKeyArg(args[i])
    ensures Declare(mro, key, args, tableInfo, md).cls.table == HasTable(key)
    ensures key in Keys(Declare(mro, key, args, tableInfo, md).md)
    ensures ResolveBindKey(mro).Some? ==>
              forall t :: t in Declare(mro, key, args, tableInfo, md).md && t.key == key ==>
                BelongsTo(t, ResolveBindKey(mro))
  {
    var named := WithSelf(mro, NamePre(mro));
    var mapped := Mapped(named, key, args, tableInfo, md);
    var after := WithSelf(mro, mapped.cls);
    assert mapped.cls.table == HasTable(key);
    assert FirstTableFrom(after, 0, 0);
    assert ResolveBindKey(named) == ResolveBindKey(mro) by {
      ResolveIsAttributeLookup(named);
      ResolveIsAttributeLookup(mro);
      LookupBindKeySameEntries(named, mro, 0);
    }
    if ResolveBindKey(mro).Some? {
      forall t | t in Declare(mro, key, args, tableInfo, md).md && t.key == key
        ensures BelongsTo(t, ResolveBindKey(mro))
      {
        StampedTableBelongs(mapped.md, key, ResolveBindKey(mro).value, t);
      }
    }
  }

  /** A model with no bind key anywhere in its MRO writes no `bind_key`:
    the metadata only gains, at most, its new table with the `info` of its
    `__table_args__`, so the table goes to the bind that `info` names, and
    to the default database when it names none. */
  lemma UnboundModelNotStamped(mro: Mro, key: string, args: seq<TableArg>, tableInfo: Info, md: Metadata)
    requires ResolveBindKey(mro).None?
    ensures md <= Declare(mro, key, args, tableInfo, md).md
    ensures |Declare(mro, key, args, tableInfo, md).md| <= |md| + 1
    ensures forall t :: t in Declare(mro, key, args, tableInfo, md).md && t !in md ==>
              t == Table(key, tableInfo) && (BindKeyEntry !in tableInfo ==> BelongsTo(t, None))
  {
    var named := WithSelf(mro, NamePre(mro));
    assert ResolveBindKey(named) == ResolveBindKey(mro) by {
      ResolveIsAttributeLookup(named);
      ResolveIsAttributeLookup(mro);
      LookupBindKeySameEntries(named, mro, 0);
    }
    assert Declare(mro, key, args, tableInfo, md).md == Mapped(named, key, args, tableInfo, md).md;
    MappedOnlyAppends(named, key, args, tableInfo, md);
  }

  /** Mapping at most appends the class's new table, with the given `info`. */
  lemma MappedOnlyAppends(mro: Mro, key: string, args: seq<TableArg>, tableInfo: Info, md: Metadata)
    ensures var r := Mapped(mro, key, args, tableInfo, md).md;
            md <= r && |r| <= |md| + 1
            && forall t :: t in r && t !in md ==> t == Table(key, tableInfo)
  {
    var r := Mapped(mro, key, args, tableInfo, md).md;
    if r != md {
      assert r == md + [Table(key, tableInfo)];
    }
  }

  /** A bound model with a primary key and a new table key: the new table
    keeps every entry of its `__table_args__` `info` except `bind_key`,
    which the resolved bind key overrides; nothing else in the metadata
    changes. */
  lemma BoundModelTableInfo(mro: Mro, key: string, args: seq<TableArg>, tableInfo: Info, md: Metadata, i: nat)
    requires TableRequested(WithSelf(mro, NamePre(mro)))
    requires i < |args| && IsPrimaryKeyArg(args[i])
    requires key !in Keys(md) && ResolveBindKey(mro).Some?
    ensures Declare(mro, key, args, tableInfo, md).md
            == md + [Table(key, tableInfo[BindKeyEntry := StrVal(ResolveBindKey(mro).value)])]
  {
    var named := WithSelf(mro, NamePre(mro));
    var mapped := Mapped(named, key, args, tableInfo, md);
    assert mapped.cls.table == HasTable(key);
    assert mapped.md == md + [Table(key, tableInfo)];
    assert FirstTableFrom(WithSelf(mro, mapped.cls), 0, 0);
    assert ResolveBindKey(named) == ResolveBindKey(mro) by {
      ResolveIsAttributeLookup(named);
      ResolveIsAttributeLookup(mro);
      LookupBindKeySameEntries(named, mro, 0);
    }
    var b := ResolveBindKey(mro).value;
    assert Declare(mro, key, args, tableInfo, md).md == Stamp(mapped.md, key, b);
    StampAppended(md, key, tableInfo, b);
  }

  /** Stamping a key that only the appended table has. */
  lemma StampAppended(md: Metadata, key: string, tableInfo: Info, b: string)
    requires key !in Keys(md)
    ensures Stamp(md + [Table(key, tableInfo)], key, b) == md + [Table(key, tableInfo[BindKeyEntry := StrVal(b)])]
  {
    var r := Stamp(md + [Table(key, tableInfo)], key, b);
    forall j | 0 <= j < |md| ensures r[j] == md[j] {
      assert md[j] in md;
    }
  }

  /** The bind-key lookup only reads `__bind_key__` entries, which naming and
    mapping never touch. */
  lemma {:induction false} LookupBindKeySameEntries(a: Mro, b: Mro, k: nat)
    requires |a| == |b| && k <= |a|
    requires forall i :: 0 <= i < |a| ==> a[i].bindKey == b[i].bindKey
    ensures LookupBindKey(a, k) == LookupBindKey(b, k)
    decreases |a| - k
  {
    if k < |a| && a[k].bindKey.NoBindKey? {
      LookupBindKeySameEntries(a, b, k + 1);
    }
  }
}

=== FILE: dicts.dfy ===
/** Python dictionary operations used throughout: `setdefault` and `get`. */
module Dicts {
  import opened Errors

  /** `d.setdefault(k, v)`: `v` is stored only when `k` is absent. */
  function SetDefault<K, V>(d: map<K, V>, k: K, v: V): (r: map<K, V>)
    ensures k in r && r[k] == (if k in d then d[k] else v)
    ensures forall j :: j in d ==> j in r && r[j] == d[j]
    ensures r.Keys == d.Keys + {k}
  {
    if k in d then d else d[k := v]
  }

  /** `d.get(k)`. */
  function Get<K, V>(d: map<K, V>, k: K): (r: Option<V>)
    ensures r.Some? <==> k in d
    ensures r.Some? ==> r.value == d[k]
  {
    if k in d then Some(d[k]) else None
  }
}

=== FILE: engine_options.dfy ===
/** Engine options: the driver-specific defaults of `apply_driver_hacks` and
  the layered merge of `_EngineConnector.get_options`.
 */
module EngineOptions {
  import opened Errors
  import opened Dicts

  datatype Pool = StaticPool | NullPool

  /** A value in an options dictionary (or the configured `SQLALCHEMY_ECHO`). */
  datatype OptVal =
    | NoneOpt
    | BoolOpt(b: bool)
    | IntOpt(i: int)
    | StrOpt(s: string)
    | PoolOpt(pool: Pool)
    | DictOpt(d: map<string, OptVal>)
    | OtherOpt(id: nat)          // any other object (a list, a callable, ...)

  /** Keyword arguments for `create_engine`. */
  type Options = map<string, OptVal>

  /** The parts of a SQLAlchemy URL the hacks read or write. */
  datatype Url = Url(drivername: string, database: Option<string>, query: map<string, string>)

  /** Python truthiness (an `OtherOpt` object is taken to be true). */
  predicate Truthy(v: OptVal)
  {
    match v
    case NoneOpt => false
    case BoolOpt(b) => b
    case IntOpt(i) => i != 0
    case StrOpt(s) => s != ""
    case PoolOpt(_) => true
    case DictOpt(d) => |d| != 0
    case OtherOpt(_) => true
  }

  /** `v == 0` in Python: `0` and `False` compare equal to zero. */
  predicate EqualsZero(v: OptVal)
  {
    v == IntOpt(0) || v == BoolOpt(false)
  }

  predicate StartsWith(s: string, prefix: string)
  {
    |prefix| <= |s| && s[..|prefix|] == prefix
  }

  predicate IsMysql(url: Url)
  {
    StartsWith(url.drivername, "mysql")
  }

  /** An SQLite URL without a file: no database, an empty one or `:memory:`. */
  predicate InMemory(url: Url)
  {
    url.database == None || url.database == Some("") || url.database == Some(":memory:")
  }

  /** `options.get("pool_size")`. */
  function PoolSize(options: Options): OptVal
  {
    if "pool_size" in options then options["pool_size"] else NoneOpt
  }

  const MysqlPoolSize: int := 10
  const MysqlPoolRecycle: int := 7200

  /** `apply_driver_hacks(adapter, sa_url, options)`: the URL and options
    after the hacks, or the error raised.  Only `drivername` decides the
    branch: names starting with `mysql`, then exactly `sqlite`. */
  function ApplyDriverHacks(url: Url, options: Options): (r: Result<(Url, Options)>)
    ensures r.Ok? ==> r.value.0.drivername == url.drivername && r.value.0.database == url.database
    ensures r.Ok? ==> options.Keys <= r.value.1.Keys
    ensures r.Ok? ==> forall k :: k in options && k != "poolclass" && k != "connect_args" ==>
                        r.value.1[k] == options[k]
    ensures r.Err? <==> url.drivername == "sqlite" && InMemory(url)
                        && (EqualsZero(PoolSize(options))
                            || ("connect_args" in options && !options["connect_args"].DictOpt?))
  {
    if IsMysql(url) then
      assert url.drivername[0] == 'm' != "sqlite"[0];
      var url' := url.(query := SetDefault(url.query, "charset", "utf8"));
      var options' :=
        if url.drivername != "mysql+gaerdbms" then
          SetDefault(SetDefault(options, "pool_size", IntOpt(MysqlPoolSize)), "pool_recycle", IntOpt(MysqlPoolRecycle))
        else options;
      Ok((url', options'))
    else if url.drivername == "sqlite" then
      var poolSize := PoolSize(options);
      if InMemory(url) then
        var withPool := options["poolclass" := PoolOpt(StaticPool)];
        var connectArgs := if "connect_args" in withPool then withPool["connect_args"] else DictOpt(map[]);
        if !connectArgs.DictOpt? then Err(ConnectArgsNotDict)
        else if EqualsZero(poolSize) then Err(InMemoryWithoutPool)
        else Ok((url, withPool["connect_args" := DictOpt(connectArgs.d["check_same_thread" := BoolOpt(false)])]))
      else if !Truthy(poolSize) then Ok((url, options["poolclass" := PoolOpt(NullPool)]))
      else Ok((url, options))
    else Ok((url, options))
  }

  /** MySQL drivers: the query gets `charset=utf8` and the options a pool of
    10 recycled after 7200 seconds, each only when absent; `mysql+gaerdbms`
    gets no pool settings.  Nothing else changes. */
  lemma MysqlDefaults(url: Url, options: Options)
    requires IsMysql(url)
    ensures ApplyDriverHacks(url, options).Ok?
    ensures var (u, o) := ApplyDriverHacks(url, options).value;
            u.query == SetDefault(url.query, "charset", "utf8")
            && (url.drivername == "mysql+gaerdbms" ==> o == options)
            && (url.drivername != "mysql+gaerdbms" ==>
                  o.Keys == options.Keys + {"pool_size", "pool_recycle"}
                  && o["pool_size"] == (if "pool_size" in options then options["pool_size"] else IntOpt(10))
                  && o["pool_recycle"] == (if "pool_recycle" in options then options["pool_recycle"] else IntOpt(7200)))
  {
  }

  /** `apply_driver_hacks` as written, run against the URLs of the
    SQLAlchemy releases that provide `sqlalchemy.ext.asyncio` and
    `sqlalchemy.orm.decl_api` (1.4 and later).  There `URL.query` is an
    immutable dictionary whose `setdefault` raises `TypeError`, so the
    MySQL branch fails at its first statement, before any pool default is
    set.  Elsewhere it agrees with `ApplyDriverHacks`, which models the
    evidently intended mutable query. */
  function ApplyDriverHacksAsWritten(url: Url, options: Options): (r: Result<(Url, Options)>)
    ensures r.Err? <==> IsMysql(url) || ApplyDriverHacks(url, options).Err?
    ensures IsMysql(url) ==> r == Err(ImmutableUrlQuery)
    ensures r.Ok? ==> r == ApplyDriverHacks(url, options)
  {
    if IsMysql(url) then Err(ImmutableUrlQuery) else ApplyDriverHacks(url, options)
  }

  /** Every MySQL URL fails as written, although the intended hacks succeed
    and set the pool defaults. */
  lemma MysqlFailsAsWritten(url: Url, options: Options)
    requires IsMysql(url)
    ensures ApplyDriverHacksAsWritten(url, options) == Err(ImmutableUrlQuery)
    ensures ApplyDriverHacks(url, options).Ok?
    ensures url.drivername != "mysql+gaerdbms" ==>
              var o := ApplyDriverHacks(url, options).value.1;
              "pool_size" in o && "pool_recycle" in o
  {
  }

  /** `mysql+pymysql://.../app` with fresh options, the call `get_options`
    makes: the written code raises, the intended one yields a pool of 10. */
  lemma PyMysqlUrlFailsAsWritten()
    ensures var url := Url("mysql+pymysql", Some("app"), map[]);
            ApplyDriverHacksAsWritten(url, map[]) == Err(ImmutableUrlQuery)
            && ApplyDriverHacks(url, map[]).Ok?
            && ApplyDriverHacks(url, map[]).value.1["pool_size"] == IntOpt(10)
  {
    var url := Url("mysql+pymysql", Some("app"), map[]);
    assert url.drivername[..5] == "mysql";
  }

  /** In-memory SQLite: a static pool and connections shared across threads,
    whatever the caller asked for; an explicit pool size of zero fails. */
  lemma InMemorySqlite(url: Url, options: Options)
    requires url.drivername == "sqlite" && InMemory(url)
    requires !("connect_args" in options && !options["connect_args"].DictOpt?)
    ensures EqualsZero(PoolSize(options)) <==> ApplyDriverHacks(url, options) == Err(InMemoryWithoutPool)
    ensures ApplyDriverHacks(url, options).Ok? ==>
              var o := ApplyDriverHacks(url, options).value.1;
              "poolclass" in o && o["poolclass"] == PoolOpt(StaticPool)
              && "connect_args" in o && o["connect_args"].DictOpt?
              && "check_same_thread" in o["connect_args"].d
              && o["connect_args"].d["check_same_thread"] == BoolOpt(false)
              && ("connect_args" in options ==>
                    forall k :: k in options["connect_args"].d && k != "check_same_thread" ==>
                      k in o["connect_args"].d && o["connect_args"].d[k] == options["connect_args"].d[k])
  {
    assert url.drivername[..5] == "sqlit";
  }

  /** File-backed SQLite: no queue (a null pool) unless a truthy pool size
    was given, in which case the options are left alone. */
  lemma FileSqlite(url: Url, options: Options)
    requires url.drivername == "sqlite" && !InMemory(url)
    ensures !Truthy(PoolSize(options)) ==>
              ApplyDriverHacks(url, options) == Ok((url, options["poolclass" := PoolOpt(NullPool)]))
    ensures Truthy(PoolSize(options)) ==> ApplyDriverHacks(url, options) == Ok((url, options))
  {
    assert url.drivername[..5] == "sqlit";
  }

  /** Any other driver, including `sqlite+pysqlite`, is left untouched. */
  lemma OtherDriversUntouched(url: Url, options: Options)
    requires !IsMysql(url) && url.drivername != "sqlite"
    ensures ApplyDriverHacks(url, options) == Ok((url, options))
  {
  }

  /** Applying the hacks to their own output changes nothing more. */
  lemma DriverHacksIdempotent(url: Url, options: Options)
    requires ApplyDriverHacks(url, options).Ok?
    ensures var (u, o) := ApplyDriverHacks(url, options).value;
            ApplyDriverHacks(u, o) == Ok((u, o))
  {
    var (u, o) := ApplyDriverHacks(url, options).value;
    if IsMysql(url) {
      assert StartsWith(u.drivername, "mysql");
      assert SetDefault(u.query, "charset", "utf8") == u.query;
    } else if url.drivername == "sqlite" && InMemory(url) {
      assert PoolSize(o) == PoolSize(options);
      var ca := o["connect_args"].d;
      assert ca["check_same_thread" := BoolOpt(false)] == ca;
      assert o["poolclass" := PoolOpt(StaticPool)] == o;
      assert o["connect_args" := DictOpt(ca)] == o;
    } else if url.drivername == "sqlite" {
      assert PoolSize(o) == PoolSize(options);
      if !Truthy(PoolSize(options)) {
        assert o["poolclass" := PoolOpt(NullPool)] == o;
      }
    }
  }

  /** On a fresh, empty options dictionary (the only way `get_options` calls
    them) the hacks never fail: the pool-size error needs a caller that
    passes its own options. */
  lemma FreshOptionsNeverFail(url: Url)
    ensures ApplyDriverHacks(url, map[]).Ok?
  {
  }

  /** The hacks applied to a fresh options dictionary. */
  function FreshHacks(url: Url): (r: (Url, Options))
    ensures ApplyDriverHacks(url, map[]) == Ok(r)
  {
    FreshOptionsNeverFail(url);
    ApplyDriverHacks(url, map[]).value
  }

  /** `get_options(sa_url, echo)`: the URL (the MySQL hack edits its query)
    and the merged options.  Lowest to highest priority: the driver hacks,
    `echo` (only when truthy), `SQLALCHEMY_ENGINE_OPTIONS`, and the options
    given to the constructor. */
  function GetOptions(url: Url, echo: OptVal, configOptions: Options, ctorOptions: Options): (r: (Url, Options))
    ensures r.1.Keys == FreshHacks(url).1.Keys
                        + (if Truthy(echo) then {"echo"} else {})
                        + configOptions.Keys + ctorOptions.Keys
  {
    var (url', hacked) := FreshHacks(url);
    var withEcho := if Truthy(echo) then hacked["echo" := echo] else hacked;
    (url', withEcho + configOptions + ctorOptions)
  }

  /** The value of each option comes from the highest layer that sets it. */
  lemma GetOptionsPrecedence(url: Url, echo: OptVal, configOptions: Options, ctorOptions: Options, k: string)
    requires k in GetOptions(url, echo, configOptions, ctorOptions).1
    ensures var o := GetOptions(url, echo, configOptions, ctorOptions).1;
            var hacked := FreshHacks(url).1;
            o[k] == if k in ctorOptions then ctorOptions[k]
                    else if k in configOptions then configOptions[k]
                    else if k == "echo" && Truthy(echo) then echo
                    else hacked[k]
  {
  }

  /** A falsy `echo` adds nothing: it is not passed as `echo=False`. */
  lemma FalsyEchoOmitted(url: Url, echo: OptVal, configOptions: Options, ctorOptions: Options)
    requires !Truthy(echo) && "echo" !in configOptions && "echo" !in ctorOptions
    ensures "echo" !in GetOptions(url, echo, configOptions, ctorOptions).1
  {
    FreshHacksNoEcho(url);
  }

  /** The driver hacks never set `echo`. */
  lemma FreshHacksNoEcho(url: Url)
    ensures "echo" !in FreshHacks(url).1
  {
    var o := ApplyDriverHacks(url, map[]).value.1;
    if IsMysql(url) {
      assert url.drivername != "mysql+gaerdbms" ==> o.Keys == {"pool_size", "pool_recycle"};
    } else if url.drivername == "sqlite" {
      assert o.Keys <= {"poolclass", "connect_args"};
    }
  }
}

=== FILE: engines.dfy ===
/** The engine registry: the per-adapter state holding one connector per
  bind key, each connector's `(uri, echo)`-keyed engine cache, and the
  facade operations that set an adapter up and hand out engines.

  Engine construction (`create_engine`) is a token numbered by the facade's
  construction counter; URL parsing (`make_url`) is a parameter.
 */
module Engines {
  import opened Errors
  import opened EngineOptions
  import opened Config

  /** An engine, numbered in construction order, with what it was built from. */
  datatype Engine = Engine(serial: nat, url: Url, options: Options)

  /** `_connected_for` and `_engine`: set together, so kept together. */
  datatype Cache = Cache(uri: Option<string>, echo: OptVal, engine: Engine)

  /** `_EngineConnector`. */
  datatype Connector = Connector(bind: Option<string>, cache: Option<Cache>)

  /** `_PhilosophyState`: the connectors, by bind key. */
  datatype State = State(connectors: map<Option<string>, Connector>)

  /** `PhilosophyAdapter`: its configuration and, once `init_adapter` has run,
    `extensions["sqlalchemy"]`. */
  datatype Adapter = Adapter(config: Config, state: Option<State>)

  /** The `Philosophy` facade: its adapter, the `engine_options` it was
    constructed with, and how many engines it has created. */
  datatype Facade = Facade(adapter: Option<Adapter>, engineOptions: Options, built: nat)

  /** `make_url`: the URL a string parses to, if any. */
  type Parser = string -> Option<Url>

  /** A facade after an operation, and what the operation returned or raised. */
  datatype Outcome<+T> = Outcome(f: Facade, r: Result<T>)

  // ---------------------------------------------------------------------
  // _EngineConnector.get_engine

  /** The connector's cache is for the configuration's current `(uri, echo)`. */
  predicate CacheHit(conn: Connector, config: Config)
  {
    GetUri(config, conn.bind).Ok? && config.echo.Set? && conn.cache.Some?
    && conn.cache.value.uri == GetUri(config, conn.bind).value
    && conn.cache.value.echo == config.echo.value
  }

  datatype Built = Built(conn: Connector, engine: Engine, built: nat)

  /** `connector.get_engine()`, with `built` engines created so far: the
    cached engine when `(uri, echo)` is what the cache was made for;
    otherwise exactly one new engine, which replaces the cache. */
  function ConnectorGetEngine(conn: Connector, config: Config, ctorOptions: Options, parse: Parser, built: nat): (r: Result<Built>)
    ensures r.Ok? ==> GetUri(config, conn.bind).Ok? && config.echo.Set?
    ensures r.Ok? ==> r.value.conn == Connector(conn.bind, Some(Cache(GetUri(config, conn.bind).value, config.echo.value, r.value.engine)))
    ensures CacheHit(conn, config) ==> r == Ok(Built(conn, conn.cache.value.engine, built))
    ensures r.Ok? && !CacheHit(conn, config) ==> r.value.built == built + 1 && r.value.engine.serial == built
    ensures r.Err? <==> GetUri(config, conn.bind).Err? || config.echo.Unset?
                        || (!CacheHit(conn, config)
                            && (GetUri(config, conn.bind).value.None?
                                || parse(GetUri(config, conn.bind).value.value).None?
                                || config.engineOptions.Unset?))
  {
    var uri :- GetUri(config, conn.bind);
    if config.echo.Unset? then Err(MissingConfig(EchoKey))
    else
      var echo := config.echo.value;
      if conn.cache.Some? && conn.cache.value.uri == uri && conn.cache.value.echo == echo then
        Ok(Built(conn, conn.cache.value.engine, built))
      else if uri.None? || parse(uri.value).None? then Err(BadUrl)
      else if config.engineOptions.Unset? then Err(MissingConfig(EngineOptionsKey))
      else
        var (url, options) := GetOptions(parse(uri.value).value, echo, config.engineOptions.value, ctorOptions);
        var engine := Engine(built, url, options);
        Ok(Built(Connector(conn.bind, Some(Cache(uri, echo, engine))), engine, built + 1))
  }

  /** A freshly built engine is created from the parsed URI with the merged options. */
  lemma NewEngineFromOptions(conn: Connector, config: Config, ctorOptions: Options, parse: Parser, built: nat)
    requires ConnectorGetEngine(conn, config, ctorOptions, parse, built).Ok?
    requires !CacheHit(conn, config)
    ensures var e := ConnectorGetEngine(conn, config, ctorOptions, parse, built).value.engine;
            var uri := GetUri(config, conn.bind).value.value;
            parse(uri).Some?
            && (e.url, e.options) == GetOptions(parse(uri).value, config.echo.value, config.engineOptions.value, ctorOptions)
  {
  }

  // ---------------------------------------------------------------------
  // Adapters and state

  /** `init_adapter(adapter)`: validate and complete the configuration, then
    register a fresh state (dropping any connectors registered before). */
  function InitAdapter(a: Adapter): (r: Result<Adapter>)
    ensures r.Err? <==> InitConfig(a.config).Err?
    ensures r.Ok? ==> r.value == Adapter(InitConfig(a.config).value, Some(State(map[])))
  {
    var config :- InitConfig(a.config);
    Ok(Adapter(config, Some(State(map[]))))
  }

  /** `set_adapter(adapter)`: the adapter is stored first, so it stays set
    (uninitialised) when `init_adapter` raises. */
  function SetAdapter(f: Facade, adapter: Option<Adapter>): (o: Outcome<()>)
    ensures o.f.engineOptions == f.engineOptions && o.f.built == f.built
    ensures o.f.adapter.Some? <==> adapter.Some?
    ensures adapter.Some? && o.r.Err? ==> o.f.adapter == adapter && o.r == Err(NoUriOrBinds)
    ensures adapter.Some? && o.r.Ok? ==> InitAdapter(adapter.value) == Ok(o.f.adapter.value)
    ensures adapter.None? ==> o.r.Ok?
  {
    match adapter
    case None => Outcome(f.(adapter := None), Ok(()))
    case Some(a) =>
      match InitAdapter(a)
      case Err(e) => Outcome(f.(adapter := Some(a)), Err(e))
      case Ok(a') => Outcome(f.(adapter := Some(a')), Ok(()))
  }

  /** `Philosophy(adapter, engine_options=...)`: no engines yet, `engine_options or {}`. */
  function NewFacade(adapter: Option<Adapter>, engineOptions: Option<Options>): (o: Outcome<()>)
    ensures o.f.built == 0
    ensures o.f.engineOptions == (if engineOptions.Some? then engineOptions.value else map[])
    ensures o.r.Ok? && o.f.adapter.Some? ==> o.f.adapter.value.state == Some(State(map[]))
  {
    SetAdapter(Facade(None, if engineOptions.Some? then engineOptions.value else map[], 0), adapter)
  }

  /** `get_adapter(adapter)`: always the facade's own adapter, whatever is passed. */
  function GetAdapter(f: Facade): (r: Result<Adapter>)
    ensures r.Ok? <==> f.adapter.Some?
    ensures r.Ok? ==> r.value == f.adapter.value
  {
    if f.adapter.Some? then Ok(f.adapter.value) else Err(NoAdapter)
  }

  /** `get_state(adapter)`: fails unless `init_adapter` has registered a state. */
  function GetState(a: Adapter): (r: Result<State>)
    ensures r.Ok? <==> a.state.Some?
    ensures r.Ok? ==> r.value == a.state.value
  {
    if a.state.Some? then Ok(a.state.value) else Err(NotRegistered)
  }

  /** `make_connector(adapter, bind)`: a connector for `bind` with nothing cached. */
  function MakeConnector(f: Facade, bind: Option<string>): (r: Result<Connector>)
    ensures r.Ok? <==> f.adapter.Some?
    ensures r.Ok? ==> r.value.bind == bind && r.value.cache.None?
  {
    var _ :- GetAdapter(f);
    Ok(Connector(bind, None))
  }

  // ---------------------------------------------------------------------
  // Philosophy.get_engine

  predicate Registered(f: Facade)
  {
    f.adapter.Some? && f.adapter.value.state.Some?
  }

  function Connectors(f: Facade): map<Option<string>, Connector>
    requires Registered(f)
  {
    f.adapter.value.state.value.connectors
  }

  /** Each connector is stored under its own bind key. */
  predicate Keyed(f: Facade)
  {
    Registered(f) ==> forall b :: b in Connectors(f) ==> Connectors(f)[b].bind == b
  }

  /** Every cached engine was created before the counter's current value. */
  predicate SerialsBelow(f: Facade)
  {
    Registered(f) ==>
      forall b :: b in Connectors(f) && Connectors(f)[b].cache.Some? ==>
        Connectors(f)[b].cache.value.engine.serial < f.built
  }

  function WithConnector(f: Facade, bind: Option<string>, c: Connector): (g: Facade)
    requires Registered(f)
    ensures Registered(g) && Connectors(g) == Connectors(f)[bind := c]
    ensures g.built == f.built && g.engineOptions == f.engineOptions
    ensures g.adapter.value.config == f.adapter.value.config
  {
    var a := f.adapter.value;
    f.(adapter := Some(a.(state := Some(State(a.state.value.connectors[bind := c])))))
  }

  /** The connector `get_engine` asks: the one stored for `bind`, or the
    one `make_connector` makes on first use. */
  function ConnectorFor(f: Facade, bind: Option<string>): (c: Connector)
    requires Registered(f)
    ensures bind in Connectors(f) ==> c == Connectors(f)[bind]
    ensures bind !in Connectors(f) ==> c == Connector(bind, None)
  {
    if bind in Connectors(f) then Connectors(f)[bind] else MakeConnector(f, bind).value
  }

  /** `get_engine(adapter, bind)`: look the connector up, creating and
    storing one on first use (it stays stored even when the engine cannot be
    made), and ask it for its engine. */
  function GetEngine(f: Facade, bind: Option<string>, parse: Parser): (o: Outcome<Engine>)
    ensures f.adapter.None? ==> o == Outcome(f, Err(NoAdapter))
    ensures f.adapter.Some? && f.adapter.value.state.None? ==> o == Outcome(f, Err(NotRegistered))
    ensures o.f.engineOptions == f.engineOptions
    ensures f.built <= o.f.built <= f.built + 1
    ensures Registered(f) ==>
              Registered(o.f) && o.f.adapter.value.config == f.adapter.value.config
              && Connectors(o.f).Keys == Connectors(f).Keys + {bind}
              && (forall b :: b in Connectors(f) && b != bind ==> Connectors(o.f)[b] == Connectors(f)[b])
    ensures o.r.Ok? ==> Registered(o.f) && Connectors(o.f)[bind].cache.Some?
                        && Connectors(o.f)[bind].cache.value.engine == o.r.value
    ensures o.r.Ok? && o.f.built == f.built + 1 ==> o.r.value.serial == f.built
    ensures Registered(f) ==>
              var r := ConnectorGetEngine(ConnectorFor(f, bind), f.adapter.value.config, f.engineOptions, parse, f.built);
              (o.r.Err? <==> r.Err?)
              && (o.r.Err? ==> o.r.error == r.error && o.f.built == f.built
                               && Connectors(o.f)[bind] == ConnectorFor(f, bind))
    ensures Keyed(f) ==> Keyed(o.f)
    ensures SerialsBelow(f) ==> SerialsBelow(o.f)
  {
    if f.adapter.None? then Outcome(f, Err(NoAdapter))
    else if f.adapter.value.state.None? then Outcome(f, Err(NotRegistered))
    else
      var a := f.adapter.value;
      var conn := ConnectorFor(f, bind);
      match ConnectorGetEngine(conn, a.config, f.engineOptions, parse, f.built)
      case Err(e) => Outcome(WithConnector(f, bind, conn), Err(e))
      case Ok(b) => Outcome(WithConnector(f, bind, b.conn).(built := b.built), Ok(b.engine))
  }

  /** The connector for `b` is stored and its cache is current. */
  predicate Hit(f: Facade, b: Option<string>)
  {
    Registered(f) && b in Connectors(f) && CacheHit(Connectors(f)[b], f.adapter.value.config)
  }

  function CachedEngine(f: Facade, b: Option<string>): Engine
    requires Hit(f, b)
  {
    Connectors(f)[b].cache.value.engine
  }

  /** A successful `get_engine` leaves its bind's cache current. */
  lemma GetEngineHits(f: Facade, bind: Option<string>, parse: Parser)
    requires Keyed(f)
    requires GetEngine(f, bind, parse).r.Ok?
    ensures Hit(GetEngine(f, bind, parse).f, bind)
    ensures CachedEngine(GetEngine(f, bind, parse).f, bind) == GetEngine(f, bind, parse).r.value
  {
    var o := GetEngine(f, bind, parse);
    assert Connectors(o.f)[bind].bind == bind;
  }

  /** A failed `get_engine` fails again in the state it leaves, the same
    way, and changes nothing more: the connector it stored is the one it
    asked, and the configuration has not moved. */
  lemma GetEngineFailsAgain(f: Facade, bind: Option<string>, parse: Parser)
    requires GetEngine(f, bind, parse).r.Err?
    ensures GetEngine(GetEngine(f, bind, parse).f, bind, parse) == GetEngine(f, bind, parse)
  {
    var o := GetEngine(f, bind, parse);
    if Registered(f) {
      var conn := ConnectorFor(f, bind);
      var g := o.f;
      assert ConnectorFor(g, bind) == conn;
      assert Connectors(g)[bind := conn] == Connectors(g);
      assert g.adapter.value.state == Some(State(Connectors(g)));
      assert WithConnector(g, bind, conn) == g;
    }
  }

  /** With a current cache, `get_engine` returns the cached engine and
    changes nothing. */
  lemma HitIsCached(f: Facade, bind: Option<string>, parse: Parser)
    requires Keyed(f) && Hit(f, bind)
    ensures GetEngine(f, bind, parse) == Outcome(f, Ok(CachedEngine(f, bind)))
  {
    var conn := Connectors(f)[bind];
    assert conn.bind == bind;
    assert Connectors(f)[bind := conn] == Connectors(f);
    assert f.adapter.value.state == Some(State(Connectors(f)));
    assert WithConnector(f, bind, conn) == f;
  }

  /** `get_engine` for any bind keeps every current cache, and its engine. */
  lemma GetEngineKeepsHits(f: Facade, bind: Option<string>, parse: Parser, b: Option<string>)
    requires Keyed(f) && Hit(f, b)
    ensures Hit(GetEngine(f, bind, parse).f, b)
    ensures CachedEngine(GetEngine(f, bind, parse).f, b) == CachedEngine(f, b)
  {
    if b == bind {
      HitIsCached(f, bind, parse);
    }
  }

  /** The same, for every bind at once. */
  lemma GetEngineKeepsAllHits(f: Facade, bind: Option<string>, parse: Parser)
    requires Keyed(f)
    ensures forall b :: Hit(f, b) ==>
              Hit(GetEngine(f, bind, parse).f, b)
              && CachedEngine(GetEngine(f, bind, parse).f, b) == CachedEngine(f, b)
  {
    forall b | Hit(f, b)
      ensures Hit(GetEngine(f, bind, parse).f, b)
      ensures CachedEngine(GetEngine(f, bind, parse).f, b) == CachedEngine(f, b)
    {
      GetEngineKeepsHits(f, bind, parse, b);
    }
  }

  /** One `get_engine` as a step of a loop over binds: current caches stay
    current, a current cache means success, and a failure repeats. */
  lemma GetEngineStep(f: Facade, bind: Option<string>, parse: Parser)
    requires Keyed(f)
    ensures var o := GetEngine(f, bind, parse);
            (forall b :: Hit(f, b) ==> Hit(o.f, b) && CachedEngine(o.f, b) == CachedEngine(f, b))
            && (Hit(f, bind) ==> o.r.Ok?)
            && (o.r.Err? ==> GetEngine(o.f, bind, parse) == o)
  {
    GetEngineKeepsAllHits(f, bind, parse);
    if Hit(f, bind) {
      HitIsCached(f, bind, parse);
    }
    if GetEngine(f, bind, parse).r.Err? {
      GetEngineFailsAgain(f, bind, parse);
    }
  }

  /** A second `get_engine` for the same bind, with the configuration
    unchanged, returns the same engine and creates nothing. */
  lemma RepeatedGetEngineCached(f: Facade, bind: Option<string>, parse: Parser)
    requires Keyed(f)
    requires GetEngine(f, bind, parse).r.Ok?
    ensures GetEngine(GetEngine(f, bind, parse).f, bind, parse) == GetEngine(f, bind, parse)
  {
    GetEngineHits(f, bind, parse);
    HitIsCached(GetEngine(f, bind, parse).f, bind, parse);
  }

  /** A cache miss creates an engine distinct from every engine cached so far. */
  lemma NewEngineIsFresh(f: Facade, bind: Option<string>, parse: Parser, b: Option<string>)
    requires SerialsBelow(f) && Registered(f)
    requires GetEngine(f, bind, parse).r.Ok? && GetEngine(f, bind, parse).f.built == f.built + 1
    requires b in Connectors(f) && Connectors(f)[b].cache.Some?
    ensures GetEngine(f, bind, parse).r.value != Connectors(f)[b].cache.value.engine
  {
  }

  /** Changing `SQLALCHEMY_ECHO` after an engine was handed out makes the
    next `get_engine` for that bind create a new one. */
  lemma EchoChangeRebuilds(f: Facade, bind: Option<string>, parse: Parser, echo: OptVal)
    requires Keyed(f)
    requires GetEngine(f, bind, parse).r.Ok?
    requires echo != GetEngine(f, bind, parse).f.adapter.value.config.echo.value
    ensures var g := GetEngine(f, bind, parse).f;
            var a := g.adapter.value;
            var g' := g.(adapter := Some(a.(config := a.config.(echo := Set(echo)))));
            var o := GetEngine(g', bind, parse);
            o.r.Ok? ==> o.f.built == g.built + 1 && o.r.value.serial == g.built
  {
    var g := GetEngine(f, bind, parse).f;
    var a := g.adapter.value;
    var g' := g.(adapter := Some(a.(config := a.config.(echo := Set(echo)))));
    assert Connectors(g')[bind] == Connectors(g)[bind];
    assert !CacheHit(Connectors(g')[bind], g'.adapter.value.config);
  }
}

=== FILE: errors.dfy ===
/** Failure values shared by the whole model.

  Every exception the adapter raises (or lets escape from a dictionary
  lookup) becomes one constructor of `Error`; operations that can fail return
  a `Result`, which is failure-compatible so that `:-` propagates errors.
 */
module Errors {

  datatype Error =
    | MissingConfig(key: string)   // KeyError on adapter.config[key]
    | UnknownBind(bind: string)    // assertion in _EngineConnector.get_uri
    | UnknownBindValue             // the same, for a bind key that is not a string
    | NoUriOrBinds                 // RuntimeError raised by init_adapter
    | InMemoryWithoutPool          // RuntimeError raised by apply_driver_hacks
    | ConnectArgsNotDict           // TypeError on options["connect_args"][...]
    | BadUrl                       // make_url could not produce a URL
    | NoAdapter                    // RuntimeError raised by get_adapter
    | NotRegistered                // assertion in get_state
    | BackrefNotSubscriptable      // TypeError on backref[1]
    | ImmutableUrlQuery            // TypeError on setdefault of an immutable URL query

  datatype Option<+T> = None | Some(value: T)

  datatype Result<+T> = Ok(value: T) | Err(error: Error) {
    predicate IsFailure() { Err? }

    function PropagateFailure<U>(): Result<U>
      requires Err?
    {
      Err(error)
    }

    function Extract(): T
      requires Ok?
    {
      value
    }
  }
}

=== FILE: naming.dfy ===
/** Automatic table names and the single/joined-table decision
  (`should_set_tablename`, `NameMetaMixin.__init__` and
  `NameMetaMixin.__table_cls__`).
 */
module Naming {
  import opened Errors
  import opened SnakeCase
  import opened Classes
  import opened Schema

  // ---------------------------------------------------------------------
  // should_set_tablename

  /** Some strict ancestor in the MRO has a declarative metaclass. */
  predicate HasDeclarativeAncestor(mro: Mro)
  {
    exists i :: 1 <= i < |mro| && mro[i].declarative
  }

  /** No entry of `mro[k..i]` declares `__tablename__` itself. */
  predicate NoOwnerBetween(mro: Mro, k: nat, i: nat)
    requires k <= i <= |mro|
  {
    forall j :: k <= j < i ==> !OwnsTablename(mro[j])
  }

  /** `mro[i]` is the first entry from `k` on that declares `__tablename__`. */
  predicate FirstOwnerFrom(mro: Mro, k: nat, i: nat)
  {
    k <= i < |mro| && OwnsTablename(mro[i]) && NoOwnerBetween(mro, k, i)
  }

  /** What the first entry that declares `__tablename__` decides: a
    declared_attr is used as it is; a table prefix on that entry asks for a
    generated name; otherwise a name is generated only over a name inherited
    from a concrete declarative ancestor (not from the class itself, an
    abstract class or a mixin). */
  predicate OwnerVerdict(mro: Mro, i: nat)
    requires i < |mro|
  {
    if mro[i].tablename == DeclaredAttr then false
    else if mro[i].prefix.Some? then true
    else !(i == 0 || mro[i].isAbstract || !mro[i].declarative)
  }

  /** The loop over the MRO from position `k`: the first owner decides, and
    with no owner a name is generated. */
  function ScanOwners(mro: Mro, k: nat): (r: bool)
    requires k <= |mro|
    ensures r <==> forall i :: FirstOwnerFrom(mro, k, i) ==> OwnerVerdict(mro, i)
    decreases |mro| - k
  {
    if k == |mro| then true
    else if !OwnsTablename(mro[k]) then
      assert forall i :: FirstOwnerFrom(mro, k, i) <==> FirstOwnerFrom(mro, k + 1, i);
      ScanOwners(mro, k + 1)
    else
      assert FirstOwnerFrom(mro, k, k);
      assert forall i :: FirstOwnerFrom(mro, k, i) ==> i == k;
      OwnerVerdict(mro, k)
  }

  /** `should_set_tablename(cls)`. */
  function ShouldSetTablename(mro: Mro): (r: bool)
    ensures r <==> !mro[0].isAbstract && HasDeclarativeAncestor(mro)
                   && forall i :: FirstOwnerFrom(mro, 0, i) ==> OwnerVerdict(mro, i)
  {
    if mro[0].isAbstract || !(exists i :: 1 <= i < |mro| && mro[i].declarative) then false
    else ScanOwners(mro, 0)
  }

  /** Only the first entry that declares `__tablename__` matters. */
  lemma FirstOwnerDecides(mro: Mro, i: nat)
    requires FirstOwnerFrom(mro, 0, i)
    ensures ShouldSetTablename(mro)
        <==> !mro[0].isAbstract && HasDeclarativeAncestor(mro) && OwnerVerdict(mro, i)
  {
    forall j: nat | FirstOwnerFrom(mro, 0, j) ensures j == i {
      assert OwnsTablename(mro[i]) && OwnsTablename(mro[j]);
    }
  }

  /** A class whose MRO declares no `__tablename__` gets a generated one,
    unless it is abstract or has no declarative ancestor. */
  lemma NoOwnerGenerates(mro: Mro)
    requires NoOwnerBetween(mro, 0, |mro|)
    ensures ShouldSetTablename(mro) <==> !mro[0].isAbstract && HasDeclarativeAncestor(mro)
  {
    assert forall i :: !FirstOwnerFrom(mro, 0, i);
  }

  /** A plain name the class declares itself, without a table prefix, is kept. */
  lemma OwnNameKept(mro: Mro)
    requires mro[0].tablename.PlainName? && mro[0].prefix.None?
    ensures !ShouldSetTablename(mro)
  {
    assert FirstOwnerFrom(mro, 0, 0);
  }

  /** A name inherited from a mixin (a class without a declarative
    metaclass) is used, not regenerated. */
  lemma MixinNameUsed(mro: Mro, i: nat)
    requires FirstOwnerFrom(mro, 0, i) && !mro[i].declarative && mro[i].prefix.None?
    ensures !ShouldSetTablename(mro)
  {
    FirstOwnerDecides(mro, i);
  }

  /** A subclass of a concrete mapped model gets its own generated name. */
  lemma SubclassOfMappedModelRenamed(mro: Mro, i: nat)
    requires FirstOwnerFrom(mro, 0, i) && 0 < i && mro[i].tablename.PlainName?
    requires mro[i].declarative && !mro[i].isAbstract && !mro[0].isAbstract
    ensures ShouldSetTablename(mro)
  {
    FirstOwnerDecides(mro, i);
  }

  // ---------------------------------------------------------------------
  // NameMetaMixin.__init__, before the class is mapped

  /** The generated name: the snake-cased table prefix, when the class
    declares one itself, directly followed by the snake-cased class name. */
  function GeneratedName(c: ClassDesc): (r: string)
    ensures r == [] || r[0] != '_'
    ensures c.prefix.None? ==> r == CamelToSnake(c.name)
  {
    match c.prefix
    case None => CamelToSnake(c.name)
    case Some(p) => CamelToSnake(p) + CamelToSnake(c.name)
  }

  /** With a prefix, the name is the snake-cased prefix followed by the
    snake-cased class name, with no separator in between. */
  lemma GeneratedNameWithPrefix(c: ClassDesc)
    requires c.prefix.Some?
    ensures GeneratedName(c) == CamelToSnake(c.prefix.value) + CamelToSnake(c.name)
  {
  }

  /** Up to case and underscores, the generated name spells the prefix and
    then the class name. */
  lemma GeneratedNameLetters(c: ClassDesc)
    ensures c.prefix.Some? ==> Letters(GeneratedName(c)) == Letters(c.prefix.value) + Letters(c.name)
    ensures c.prefix.None? ==> Letters(GeneratedName(c)) == Letters(c.name)
  {
    CamelToSnakeSameLetters(c.name);
    if c.prefix.Some? {
      CamelToSnakeSameLetters(c.prefix.value);
      LettersConcat(CamelToSnake(c.prefix.value), CamelToSnake(c.name));
    }
  }

  /** The class after the first half of `NameMetaMixin.__init__`: when a name
    should be set, its own `__tablename__` becomes the generated name (even
    over one it declared itself, if it also declares a prefix); nothing else
    changes. */
  function NamePre(mro: Mro): (c: ClassDesc)
    ensures c.(tablename := mro[0].tablename) == mro[0]
    ensures ShouldSetTablename(mro) ==> c.tablename == PlainName(GeneratedName(mro[0]))
    ensures !ShouldSetTablename(mro) ==> c == mro[0]
  {
    if ShouldSetTablename(mro) then mro[0].(tablename := PlainName(GeneratedName(mro[0])))
    else mro[0]
  }

  /** `MyHappyClass(db.Model)` with nothing declared gets a generated name. */
  lemma PlainModelGetsName(mro: Mro)
    requires NoOwnerBetween(mro, 0, |mro|) && !mro[0].isAbstract && HasDeclarativeAncestor(mro)
    ensures NamePre(mro).tablename == PlainName(CamelToSnake(mro[0].name)) || mro[0].prefix.Some?
    ensures OwnsTablename(NamePre(mro))
  {
    NoOwnerGenerates(mro);
  }

  // ---------------------------------------------------------------------
  // NameMetaMixin.__table_cls__

  predicate IsPrimaryKeyArg(a: TableArg)
  {
    (a.ColumnArg? && a.primaryKey) || a.PrimaryKeyConstraint?
  }

  /** The loop over the arguments from position `k`: is there a primary-key
    column or a primary-key constraint? */
  function HasPrimaryKeyFrom(args: seq<TableArg>, k: nat): (r: bool)
    requires k <= |args|
    ensures r <==> exists i :: k <= i < |args| && IsPrimaryKeyArg(args[i])
    decreases |args| - k
  {
    if k == |args| then false
    else IsPrimaryKeyArg(args[k]) || HasPrimaryKeyFrom(args, k + 1)
  }

  /** The loop over `mro[k:-1]`: does some entry have a `__table__` of its own? */
  function AncestorTableFrom(mro: Mro, k: nat): (r: bool)
    requires 1 <= k <= |mro|
    ensures r <==> exists i :: k <= i < |mro| - 1 && mro[i].table != NoTable
    decreases |mro| - k
  {
    if k >= |mro| - 1 then false
    else mro[k].table != NoTable || AncestorTableFrom(mro, k + 1)
  }

  /** Whether `__table_cls__` builds a table: the key is already in the
    metadata (a reflected table), some argument is a primary key (joined-table
    inheritance), or no strict ancestor other than `object` has a table. */
  predicate BuildsTable(mro: Mro, key: string, md: Metadata, args: seq<TableArg>)
  {
    key in Keys(md)
    || (exists i :: 0 <= i < |args| && IsPrimaryKeyArg(args[i]))
    || (forall i :: 1 <= i < |mro| - 1 ==> mro[i].table == NoTable)
  }

  datatype TableClsOutcome = TableClsOutcome(built: bool, cls: ClassDesc)

  /** `__table_cls__(cls, *args)`: `key` is the table key SQLAlchemy derives
    from the name and schema.  When no table is built (single-table
    inheritance) the class's own `__tablename__` is removed. */
  function TableCls(mro: Mro, key: string, md: Metadata, args: seq<TableArg>): (out: TableClsOutcome)
    ensures out.built <==> BuildsTable(mro, key, md, args)
    ensures out.built ==> out.cls == mro[0]
    ensures !out.built ==> out.cls == mro[0].(tablename := NoTableName)
  {
    if key in Keys(md) then TableClsOutcome(true, mro[0])
    else if HasPrimaryKeyFrom(args, 0) then TableClsOutcome(true, mro[0])
    else if !AncestorTableFrom(mro, 1) then TableClsOutcome(true, mro[0])
    else TableClsOutcome(false, mro[0].(tablename := NoTableName))
  }

  /** A model subclass with no primary key of its own, under a parent with a
    table, shares the parent's table and loses its own name. */
  lemma SingleTableInheritance(mro: Mro, key: string, md: Metadata, args: seq<TableArg>, i: nat)
    requires key !in Keys(md)
    requires forall a :: a in args ==> !IsPrimaryKeyArg(a)
    requires 1 <= i < |mro| - 1 && mro[i].table.HasTable?
    ensures !TableCls(mro, key, md, args).built
    ensures !OwnsTablename(TableCls(mro, key, md, args).cls)
  {
  }

  /** A subclass that declares a primary key gets a table of its own. */
  lemma JoinedTableInheritance(mro: Mro, key: string, md: Metadata, args: seq<TableArg>, i: nat)
    requires i < |args| && IsPrimaryKeyArg(args[i])
    ensures TableCls(mro, key, md, args).built
    ensures TableCls(mro, key, md, args).cls == mro[0]
  {
  }

  // ---------------------------------------------------------------------
  // NameMetaMixin.__init__, after the class is mapped

  /** An own `__table__` of `None` is deleted when the class has no own
    `__tablename__`; nothing else changes. */
  function NamePost(c: ClassDesc): (r: ClassDesc)
    ensures r.(table := c.table) == c
    ensures r.table == NullTable ==> OwnsTablename(c)
    ensures r.table != c.table ==> c.table == NullTable && r.table == NoTable
  {
    if !OwnsTablename(c) && c.table == NullTable then c.(table := NoTable) else c
  }
}

=== FILE: query_class.dfy ===
/** The default query class that `db.relationship` and `db.dynamic_loader`
  pass on: `_set_default_query_class` and `_wrap_with_default_query_class`.

  The wrapped SQLAlchemy function is left abstract; what is modelled is the
  keyword arguments it receives.
 */
module QueryClass {
  import opened Errors
  import opened Dicts

  /** A keyword-argument value: a class (by token), a string, a backref
    tuple `(name, kwargs)` (what `sqlalchemy.orm.backref` returns), `None`,
    or any other object. */
  datatype KwVal =
    | ClassRef(id: nat)
    | StrKw(s: string)
    | BackrefKw(name: string, kwargs: map<string, KwVal>)
    | NoneKw
    | OtherKw(id: nat)

  type Kwargs = map<string, KwVal>

  const QueryClassKey: string := "query_class"
  const BackrefKey: string := "backref"

  /** `_set_default_query_class(d, cls)`. The default `cls` is the facade's
    `query_class`, which is `None` (`NoneKw`) unless the caller set one. */
  function SetDefaultQueryClass(d: Kwargs, cls: KwVal): (r: Kwargs)
    ensures QueryClassKey in r
    ensures QueryClassKey in d ==> r == d
    ensures QueryClassKey !in d ==> r == d[QueryClassKey := cls]
  {
    SetDefault(d, QueryClassKey, cls)
  }

  /** A caller's `query_class` is never overridden, and a second default
    changes nothing. */
  lemma SetDefaultQueryClassKeeps(d: Kwargs, cls: KwVal, cls2: KwVal)
    ensures SetDefaultQueryClass(d, cls)[QueryClassKey]
         == (if QueryClassKey in d then d[QueryClassKey] else cls)
    ensures SetDefaultQueryClass(SetDefaultQueryClass(d, cls), cls2) == SetDefaultQueryClass(d, cls)
  {
  }

  /** The keyword arguments the wrapped function receives, as the code is
    written: a string backref is turned into a tuple that is then thrown
    away, so the function gets the bare string with no query class. */
  function WrapAsWritten(kwargs: Kwargs, cls: KwVal): (r: Result<Kwargs>)
    ensures r.Err? <==> BackrefKey in kwargs && !kwargs[BackrefKey].StrKw? && !kwargs[BackrefKey].BackrefKw?
    ensures r.Ok? ==> r.value.Keys == kwargs.Keys + {QueryClassKey}
    ensures r.Ok? ==> r.value[QueryClassKey] == (if QueryClassKey in kwargs then kwargs[QueryClassKey] else cls)
    ensures r.Ok? ==> forall k :: k in kwargs && k != QueryClassKey && k != BackrefKey ==> r.value[k] == kwargs[k]
    ensures r.Ok? && BackrefKey in kwargs && kwargs[BackrefKey].StrKw? ==> r.value[BackrefKey] == kwargs[BackrefKey]
    ensures r.Ok? && BackrefKey in kwargs && kwargs[BackrefKey].BackrefKw? ==>
              var b := kwargs[BackrefKey];
              r.value[BackrefKey].BackrefKw? && r.value[BackrefKey].name == b.name
              && r.value[BackrefKey].kwargs.Keys == b.kwargs.Keys + {QueryClassKey}
              && r.value[BackrefKey].kwargs[QueryClassKey]
                 == (if QueryClassKey in b.kwargs then b.kwargs[QueryClassKey] else cls)
              && forall k :: k in b.kwargs ==> r.value[BackrefKey].kwargs[k] == b.kwargs[k]
  {
    var k := SetDefaultQueryClass(kwargs, cls);
    if BackrefKey !in k then Ok(k)
    else
      match k[BackrefKey]
      case StrKw(_) => Ok(k)
      case BackrefKw(name, opts) => Ok(k[BackrefKey := BackrefKw(name, SetDefaultQueryClass(opts, cls))])
      case _ => Err(BackrefNotSubscriptable)
  }

  /** `db.relationship("Child", backref="parent")`: the backref reaches
    SQLAlchemy as the plain string, without the default query class. */
  lemma StringBackrefLosesQueryClass(kwargs: Kwargs, cls: KwVal)
    requires BackrefKey in kwargs && kwargs[BackrefKey].StrKw?
    ensures WrapAsWritten(kwargs, cls).Ok?
    ensures WrapAsWritten(kwargs, cls).value[BackrefKey] == kwargs[BackrefKey]
    ensures !WrapAsWritten(kwargs, cls).value[BackrefKey].BackrefKw?
  {
  }

  /** The evident intent: a string backref is replaced by the tuple
    `(name, {"query_class": cls})`. */
  function Wrap(kwargs: Kwargs, cls: KwVal): (r: Result<Kwargs>)
    ensures r.Err? <==> BackrefKey in kwargs && !kwargs[BackrefKey].StrKw? && !kwargs[BackrefKey].BackrefKw?
  {
    var k := SetDefaultQueryClass(kwargs, cls);
    if BackrefKey !in k then Ok(k)
    else
      match k[BackrefKey]
      case StrKw(name) => Ok(k[BackrefKey := BackrefKw(name, map[QueryClassKey := cls])])
      case BackrefKw(name, opts) => Ok(k[BackrefKey := BackrefKw(name, SetDefaultQueryClass(opts, cls))])
      case _ => Err(BackrefNotSubscriptable)
  }

  /** With the correction, the relationship and its backref both carry a
    query class: the caller's where given, the default otherwise.  Every
    other argument is passed through unchanged. */
  lemma WrapSetsQueryClass(kwargs: Kwargs, cls: KwVal)
    requires Wrap(kwargs, cls).Ok?
    ensures var r := Wrap(kwargs, cls).value;
            r.Keys == kwargs.Keys + {QueryClassKey}
            && r[QueryClassKey] == (if QueryClassKey in kwargs then kwargs[QueryClassKey] else cls)
            && (forall k :: k in kwargs && k != QueryClassKey && k != BackrefKey ==> r[k] == kwargs[k])
            && (BackrefKey in kwargs ==>
                  r[BackrefKey].BackrefKw? && QueryClassKey in r[BackrefKey].kwargs
                  && r[BackrefKey].name == (if kwargs[BackrefKey].StrKw? then kwargs[BackrefKey].s else kwargs[BackrefKey].name)
                  && (kwargs[BackrefKey].BackrefKw? && QueryClassKey in kwargs[BackrefKey].kwargs ==>
                        r[BackrefKey].kwargs[QueryClassKey] == kwargs[BackrefKey].kwargs[QueryClassKey]))
  {
  }

  /** The correction changes only string backrefs: with a tuple backref or
    none at all, both versions pass the same arguments. */
  lemma WrapAgreesOffStrings(kwargs: Kwargs, cls: KwVal)
    requires !(BackrefKey in kwargs && kwargs[BackrefKey].StrKw?)
    ensures Wrap(kwargs, cls) == WrapAsWritten(kwargs, cls)
  {
  }

  /** Wrapping twice (a wrapped function wrapped again) is wrapping once. */
  lemma WrapIdempotent(kwargs: Kwargs, cls: KwVal)
    requires Wrap(kwargs, cls).Ok?
    ensures Wrap(Wrap(kwargs, cls).value, cls) == Wrap(kwargs, cls)
  {
    var k := SetDefaultQueryClass(kwargs, cls);
    var r := Wrap(kwargs, cls).value;
    if BackrefKey in k {
      var b := r[BackrefKey];
      assert SetDefaultQueryClass(b.kwargs, cls) == b.kwargs;
      assert SetDefaultQueryClass(r, cls) == r;
      assert r[BackrefKey := b] == r;
    }
  }
}

=== FILE: routing.dfy ===
/** Bind routing: which binds `create_all`/`drop_all` visit, which tables go
  with each, the table-to-engine map of `get_binds`, and the session's
  `get_bind`.
 */
module Routing {
  import opened Errors
  import opened EngineOptions
  import opened Config
  import opened Schema
  import opened Engines

  /** The `bind` argument: one key (or `None`), or a list of them. */
  datatype BindArg = Single(key: Option<string>) | Many(keys: seq<Option<string>>)

  const AllBinds: string := "__all__"

  /** `[None] + list(config.get("SQLALCHEMY_BINDS") or ())`: the default bind,
    then every configured key in order. */
  function AllBindKeys(c: Config): (r: seq<Option<string>>)
    ensures |r| == 1 + |BindKeys(c)| && r[0] == None
    ensures forall i :: 0 <= i < |BindKeys(c)| ==> r[i + 1] == Some(BindKeys(c)[i])
  {
    [None] + seq(|BindKeys(c)|, i requires 0 <= i < |BindKeys(c)| => Some(BindKeys(c)[i]))
  }

  /** `get_uri` succeeds for every key in the list once the URI entry is
    present: a configured key gives its URI, and the default bind gives the
    URI entry, which `init_adapter` leaves `None` when only binds are set.
    The list is exactly the default bind and the configured keys, each once. */
  lemma AllBindKeysResolve(c: Config)
    requires c.uri.Set?
    ensures forall b :: b in AllBindKeys(c) ==> GetUri(c, b).Ok?
    ensures forall b :: b in AllBindKeys(c) && b.Some? ==> GetUri(c, b).value.Some?
    ensures GetUri(c, None) == Ok(c.uri.value)
    ensures forall k :: k in ConfiguredBinds(c) ==> Some(k) in AllBindKeys(c)
    ensures forall i, j :: 0 <= i < j < |AllBindKeys(c)| ==> AllBindKeys(c)[i] != AllBindKeys(c)[j]
  {
    forall b | b in AllBindKeys(c) ensures GetUri(c, b).Ok? {
      AllBindKeysMember(c, b);
    }
    forall k | k in ConfiguredBinds(c) ensures Some(k) in AllBindKeys(c) {
      AllBindKeysCover(c, k);
    }
    AllBindKeysDistinct(c);
  }

  lemma AllBindKeysMember(c: Config, b: Option<string>)
    requires b in AllBindKeys(c)
    ensures b.Some? ==> b.value in BindKeys(c)
  {
    var r := AllBindKeys(c);
    var i :| 0 <= i < |r| && r[i] == b;
    if i > 0 {
      assert BindKeys(c)[i - 1] in BindKeys(c);
    }
  }

  lemma AllBindKeysCover(c: Config, k: string)
    requires k in ConfiguredBinds(c)
    ensures Some(k) in AllBindKeys(c)
  {
    var i :| 0 <= i < |BindKeys(c)| && BindKeys(c)[i] == k;
    assert AllBindKeys(c)[i + 1] == Some(k);
  }

  lemma AllBindKeysDistinct(c: Config)
    ensures forall i, j :: 0 <= i < j < |AllBindKeys(c)| ==> AllBindKeys(c)[i] != AllBindKeys(c)[j]
  {
    DefaultThenDistinct(BindKeys(c), AllBindKeys(c));
  }

  lemma DefaultThenDistinct(ks: seq<string>, r: seq<Option<string>>)
    requires forall i, j :: 0 <= i < j < |ks| ==> ks[i] != ks[j]
    requires |r| == |ks| + 1 && r[0] == None
    requires forall i :: 0 <= i < |ks| ==> r[i + 1] == Some(ks[i])
    ensures forall i, j :: 0 <= i < j < |r| ==> r[i] != r[j]
  {
    forall i, j | 0 <= i < j < |r| ensures r[i] != r[j] {
      assert r[j] == Some(ks[j - 1]);
      if i > 0 {
        assert r[i] == Some(ks[i - 1]);
      }
    }
  }

  /** The binds `_execute_for_all_tables` visits: `"__all__"` means every
    bind; any other single key (or `None`) means that one; a list is taken
    as given. */
  function ExpandBinds(c: Config, arg: BindArg): (r: seq<Option<string>>)
    ensures arg == Single(Some(AllBinds)) ==> r == AllBindKeys(c)
    ensures arg.Single? && arg.key != Some(AllBinds) ==> r == [arg.key]
    ensures arg.Many? ==> r == arg.keys
  {
    match arg
    case Single(k) => if k == Some(AllBinds) then AllBindKeys(c) else [k]
    case Many(ks) => ks
  }

  datatype Op = CreateAllOp | DropAllOp

  /** One call `metadata.<op>(bind=engine, tables=...)`; no `tables` when skipped. */
  datatype Call = Call(op: Op, engine: Engine, tables: Option<Metadata>)

  /** The `tables` argument for `bind`. */
  function TablesArg(md: Metadata, bind: Option<string>, skipTables: bool): Option<Metadata>
  {
    if skipTables then None else Some(TablesFor(md, bind))
  }

  /** What the loop of `_execute_for_all_tables` leaves behind: the facade,
    the calls made, in order, and the error that stopped the loop, if any.
    The calls made before a failure have already happened. */
  datatype Run = Run(f: Facade, calls: seq<Call>, failure: Option<Error>)

  /** The loop of `_execute_for_all_tables` over `binds`: one call per bind,
    stopping at the first bind whose engine cannot be had.  Caches that
    were current stay current. */
  function RunOps(f: Facade, binds: seq<Option<string>>, op: Op, md: Metadata, skipTables: bool, parse: Parser): (o: Run)
    requires Keyed(f)
    ensures Keyed(o.f)
    ensures forall b :: Hit(f, b) ==> Hit(o.f, b) && CachedEngine(o.f, b) == CachedEngine(f, b)
    ensures o.failure.None? ==> |o.calls| == |binds|
    ensures o.failure.Some? ==> |o.calls| < |binds|
    decreases |binds|
  {
    if binds == [] then Run(f, [], None)
    else
      var e := GetEngine(f, binds[0], parse);
      GetEngineKeepsAllHits(f, binds[0], parse);
      if e.r.Err? then Run(e.f, [], Some(e.r.error))
      else
        var rest := RunOps(e.f, binds[1..], op, md, skipTables, parse);
        Run(rest.f, [Call(op, e.r.value, TablesArg(md, binds[0], skipTables))] + rest.calls, rest.failure)
  }

  /** The loop stops only at a bind whose engine cannot be had: asking for
    that bind's engine again fails with the error reported, and changes
    nothing. */
  lemma {:induction false} RunOpsStopsAtFailure(f: Facade, binds: seq<Option<string>>, op: Op, md: Metadata, skipTables: bool, parse: Parser)
    requires Keyed(f)
    ensures var o := RunOps(f, binds, op, md, skipTables, parse);
            o.failure.Some? ==> GetEngine(o.f, binds[|o.calls|], parse) == Outcome(o.f, Err(o.failure.value))
    decreases |binds|
  {
    if binds != [] {
      var e := GetEngine(f, binds[0], parse);
      if e.r.Err? {
        GetEngineFailsAgain(f, binds[0], parse);
        assert RunOps(f, binds, op, md, skipTables, parse) == Run(e.f, [], Some(e.r.error));
        assert e == Outcome(e.f, Err(e.r.error));
      } else {
        RunOpsStopsAtFailure(e.f, binds[1..], op, md, skipTables, parse);
        var rest := RunOps(e.f, binds[1..], op, md, skipTables, parse);
        assert RunOps(f, binds, op, md, skipTables, parse)
               == Run(rest.f, [Call(op, e.r.value, TablesArg(md, binds[0], skipTables))] + rest.calls, rest.failure);
        assert rest.failure.Some? ==> binds[1..][|rest.calls|] == binds[|rest.calls| + 1];
      }
    }
  }

  /** When every bind's cache is current, the loop never stops. */
  lemma {:induction false} RunOpsHitsNeverFail(f: Facade, binds: seq<Option<string>>, op: Op, md: Metadata, skipTables: bool, parse: Parser)
    requires Keyed(f)
    ensures (forall b :: b in binds ==> Hit(f, b)) ==> RunOps(f, binds, op, md, skipTables, parse).failure.None?
    decreases |binds|
  {
    if binds != [] && forall b :: b in binds ==> Hit(f, b) {
      var e := GetEngine(f, binds[0], parse);
      GetEngineStep(f, binds[0], parse);
      assert forall b :: b in binds[1..] ==> b in binds;
      RunOpsHitsNeverFail(e.f, binds[1..], op, md, skipTables, parse);
      var rest := RunOps(e.f, binds[1..], op, md, skipTables, parse);
      assert RunOps(f, binds, op, md, skipTables, parse)
             == Run(rest.f, [Call(op, e.r.value, TablesArg(md, binds[0], skipTables))] + rest.calls, rest.failure);
    }
  }

  /** `c` is the operation on `bind`'s tables, sent to the engine `bind`'s
    connector holds in `g`. */
  predicate CallFor(g: Facade, c: Call, bind: Option<string>, op: Op, md: Metadata, skipTables: bool)
  {
    c.op == op && c.tables == TablesArg(md, bind, skipTables)
    && Hit(g, bind) && c.engine == CachedEngine(g, bind)
  }

  /** Call `i` is the operation on bind `i`'s tables, sent to the engine
    that bind's connector holds at the end; this holds for the calls made
    before a failure too. */
  lemma {:induction false} RunOpsCalls(f: Facade, binds: seq<Option<string>>, op: Op, md: Metadata, skipTables: bool, parse: Parser)
    requires Keyed(f)
    ensures var o := RunOps(f, binds, op, md, skipTables, parse);
            forall i :: 0 <= i < |o.calls| ==> CallFor(o.f, o.calls[i], binds[i], op, md, skipTables)
    decreases |binds|
  {
    if binds != [] && GetEngine(f, binds[0], parse).r.Ok? {
      var e := GetEngine(f, binds[0], parse);
      RunOpsHead(f, binds, op, md, skipTables, parse);
      RunOpsCalls(e.f, binds[1..], op, md, skipTables, parse);
      var rest := RunOps(e.f, binds[1..], op, md, skipTables, parse);
      CallsShift(rest.f, Call(op, e.r.value, TablesArg(md, binds[0], skipTables)), rest.calls, binds, op, md, skipTables);
    }
  }

  /** The first round of the loop, when its engine can be had: its call is
    for the first bind, and the rest of the loop keeps that bind's cache. */
  lemma RunOpsHead(f: Facade, binds: seq<Option<string>>, op: Op, md: Metadata, skipTables: bool, parse: Parser)
    requires Keyed(f) && binds != []
    requires GetEngine(f, binds[0], parse).r.Ok?
    ensures var e := GetEngine(f, binds[0], parse);
            Keyed(e.f)
            && var rest := RunOps(e.f, binds[1..], op, md, skipTables, parse);
               var c := Call(op, e.r.value, TablesArg(md, binds[0], skipTables));
               RunOps(f, binds, op, md, skipTables, parse) == Run(rest.f, [c] + rest.calls, rest.failure)
               && CallFor(rest.f, c, binds[0], op, md, skipTables)
  {
    GetEngineHits(f, binds[0], parse);
  }

  lemma CallsShift(g: Facade, c: Call, calls: seq<Call>, binds: seq<Option<string>>, op: Op, md: Metadata, skipTables: bool)
    requires |binds| >= |calls| + 1
    requires CallFor(g, c, binds[0], op, md, skipTables)
    requires forall i :: 0 <= i < |calls| ==> CallFor(g, calls[i], binds[1..][i], op, md, skipTables)
    ensures forall i :: 0 <= i < |calls| + 1 ==> CallFor(g, ([c] + calls)[i], binds[i], op, md, skipTables)
  {
    forall i | 1 <= i < |calls| + 1 ensures CallFor(g, ([c] + calls)[i], binds[i], op, md, skipTables) {
      assert ([c] + calls)[i] == calls[i - 1] && binds[i] == binds[1..][i - 1];
    }
  }

  /** `_execute_for_all_tables(adapter, bind, operation, skip_tables)`. */
  function ExecuteForAllTables(f: Facade, arg: BindArg, op: Op, md: Metadata, skipTables: bool, parse: Parser): (o: Run)
    requires Keyed(f)
    ensures f.adapter.None? ==> o == Run(f, [], Some(NoAdapter))
    ensures f.adapter.Some? ==> o == RunOps(f, ExpandBinds(f.adapter.value.config, arg), op, md, skipTables, parse)
  {
    match GetAdapter(f)
    case Err(e) => Run(f, [], Some(e))
    case Ok(a) => RunOps(f, ExpandBinds(a.config, arg), op, md, skipTables, parse)
  }

  /** `create_all(bind="__all__")` and `drop_all(bind="__all__")`. */
  function CreateAll(f: Facade, arg: BindArg, md: Metadata, parse: Parser): (o: Run)
    requires Keyed(f)
  {
    ExecuteForAllTables(f, arg, CreateAllOp, md, false, parse)
  }

  function DropAll(f: Facade, arg: BindArg, md: Metadata, parse: Parser): (o: Run)
    requires Keyed(f)
  {
    ExecuteForAllTables(f, arg, DropAllOp, md, false, parse)
  }

  /** By default `create_all` visits the default bind and then every
    configured bind, in order, creating each bind's tables on the engine its
    connector then holds; when a bind's engine cannot be had, the binds
    before it have had their tables created and none after it is visited. */
  lemma CreateAllVisitsEveryBind(f: Facade, md: Metadata, parse: Parser)
    requires Keyed(f) && f.adapter.Some?
    ensures var o := CreateAll(f, Single(Some(AllBinds)), md, parse);
            var binds := AllBindKeys(f.adapter.value.config);
            (o.failure.None? <==> |o.calls| == |binds|)
            && (o.failure.Some? ==> GetEngine(o.f, binds[|o.calls|], parse) == Outcome(o.f, Err(o.failure.value)))
            && ((forall b :: b in binds ==> Hit(f, b)) ==> o.failure.None?)
            && forall i :: 0 <= i < |o.calls| ==>
                 Hit(o.f, binds[i]) && o.calls[i] == Call(CreateAllOp, CachedEngine(o.f, binds[i]), Some(TablesFor(md, binds[i])))
  {
    var binds := AllBindKeys(f.adapter.value.config);
    assert ExpandBinds(f.adapter.value.config, Single(Some(AllBinds))) == binds;
    var o := RunOps(f, binds, CreateAllOp, md, false, parse);
    assert CreateAll(f, Single(Some(AllBinds)), md, parse) == o;
    RunOpsCalls(f, binds, CreateAllOp, md, false, parse);
    RunOpsStopsAtFailure(f, binds, CreateAllOp, md, false, parse);
    RunOpsHitsNeverFail(f, binds, CreateAllOp, md, false, parse);
    forall i | 0 <= i < |o.calls|
      ensures Hit(o.f, binds[i]) && o.calls[i] == Call(CreateAllOp, CachedEngine(o.f, binds[i]), Some(TablesFor(md, binds[i])))
    {
      assert CallFor(o.f, o.calls[i], binds[i], CreateAllOp, md, false);
    }
  }

  /** A table is among the tables of some bind in `binds` exactly when its
    bind key is one of them; so `create_all` skips a table whose bind is not
    configured. */
  lemma TablesOfBinds(md: Metadata, binds: seq<Option<string>>, t: Table)
    requires t in md
    ensures (exists i :: 0 <= i < |binds| && t in TablesFor(md, binds[i]))
            <==> BindOf(t).Some? && BindOf(t).value in binds
  {
    if BindOf(t).Some? && BindOf(t).value in binds {
      var i :| 0 <= i < |binds| && binds[i] == BindOf(t).value;
      assert t in TablesFor(md, binds[i]);
    }
  }

  // ---------------------------------------------------------------------
  // get_binds

  /** The bind a table is routed to, by its `bind_key` info entry; `None`
    when the entry is neither `None` nor a string. */
  function BindOf(t: Table): (r: Option<Option<string>>)
    ensures forall b :: BelongsTo(t, b) <==> r == Some(b)
  {
    match BindKeyOf(t)
    case NoneVal => Some(None)
    case StrVal(s) => Some(Some(s))
    case OtherVal(_) => None
  }

  /** `m` maps exactly the tables of the binds in `done`, each to the
    engine its bind's connector holds in `g`. */
  ghost predicate Routes(g: Facade, m: map<Table, Engine>, md: Metadata, done: seq<Option<string>>)
  {
    (forall t :: t in m <==> t in md && BindOf(t).Some? && BindOf(t).value in done)
    && (forall t :: t in m ==> Hit(g, BindOf(t).value) && m[t] == CachedEngine(g, BindOf(t).value))
  }

  /** `retval.update(dict((table, engine) for table in tables))`. */
  function AddTables(m: map<Table, Engine>, tables: Metadata, engine: Engine): (r: map<Table, Engine>)
    ensures forall t :: t in r <==> t in m || t in tables
    ensures forall t :: t in r ==> r[t] == if t in tables then engine else m[t]
  {
    m + map t | t in tables :: engine
  }

  /** One round of the `get_binds` loop: ask for the bind's engine, then add
    its tables. */
  lemma RoutesStep(g: Facade, m: map<Table, Engine>, md: Metadata, done: seq<Option<string>>,
                   bind: Option<string>, parse: Parser)
    requires Keyed(g) && Routes(g, m, md, done)
    requires GetEngine(g, bind, parse).r.Ok?
    ensures var e := GetEngine(g, bind, parse);
            Routes(e.f, AddTables(m, TablesFor(md, bind), e.r.value), md, done + [bind])
  {
    var e := GetEngine(g, bind, parse);
    var m' := AddTables(m, TablesFor(md, bind), e.r.value);
    GetEngineHits(g, bind, parse);
    forall t | t in m ensures Hit(e.f, BindOf(t).value) && CachedEngine(e.f, BindOf(t).value) == m[t] {
      GetEngineKeepsHits(g, bind, parse, BindOf(t).value);
    }
    forall t | t in m' ensures Hit(e.f, BindOf(t).value) && m'[t] == CachedEngine(e.f, BindOf(t).value) {
      if t in TablesFor(md, bind) {
        assert BelongsTo(t, bind);
      }
    }
  }

  lemma PrefixGrows<T>(s: seq<T>, i: nat)
    requires i < |s|
    ensures s[..i + 1] == s[..i] + [s[i]]
  {
  }

  /** `get_binds(adapter)`: every table of a known bind, mapped to that
    bind's engine; the engines are asked for in bind order and the first
    failure is raised. */
  method GetBinds(f: Facade, md: Metadata, parse: Parser) returns (o: Outcome<map<Table, Engine>>)
    requires Keyed(f)
    ensures Keyed(o.f)
    ensures f.adapter.None? ==> o == Outcome(f, Err(NoAdapter))
    ensures f.adapter.Some? ==> o.f.adapter.Some? && o.f.adapter.value.config == f.adapter.value.config
    ensures forall b :: Hit(f, b) ==> Hit(o.f, b) && CachedEngine(o.f, b) == CachedEngine(f, b)
    ensures o.r.Ok? ==> f.adapter.Some?
    ensures o.r.Ok? ==> Routes(o.f, o.r.value, md, AllBindKeys(f.adapter.value.config))
    ensures f.adapter.Some? && (forall b :: b in AllBindKeys(f.adapter.value.config) ==> Hit(f, b)) ==> o.r.Ok?
    ensures f.adapter.Some? && o.r.Err? ==>
              exists i :: 0 <= i < |AllBindKeys(f.adapter.value.config)|
                          && GetEngine(o.f, AllBindKeys(f.adapter.value.config)[i], parse) == Outcome(o.f, Err(o.r.error))
  {
    if f.adapter.None? {
      return Outcome(f, Err(NoAdapter));
    }
    var binds := AllBindKeys(f.adapter.value.config);
    var g := f;
    var m: map<Table, Engine> := map[];
    var i := 0;
    while i < |binds|
      invariant 0 <= i <= |binds|
      invariant Keyed(g) && g.adapter.Some? && g.adapter.value.config == f.adapter.value.config
      invariant Routes(g, m, md, binds[..i])
      invariant (forall b :: b in binds ==> Hit(f, b)) ==> forall b :: b in binds ==> Hit(g, b)
      invariant forall b :: Hit(f, b) ==> Hit(g, b) && CachedEngine(g, b) == CachedEngine(f, b)
    {
      var e := GetEngine(g, binds[i], parse);
      GetEngineStep(g, binds[i], parse);
      if e.r.Err? {
        assert e == Outcome(e.f, Err(e.r.error));
        return Outcome(e.f, Err(e.r.error));
      }
      RoutesStep(g, m, md, binds[..i], binds[i], parse);
      var tables := GetTablesForBind(md, binds[i]);
      PrefixGrows(binds, i);
      m := AddTables(m, tables, e.r.value);
      g := e.f;
      i := i + 1;
    }
    assert binds[..i] == binds;
    return Outcome(g, Ok(m));
  }

  // ---------------------------------------------------------------------
  // PhilosophySession.get_bind

  /** Where a session sends a query: its default bind (left to SQLAlchemy's
    own `get_bind`), or a bind's engine. */
  datatype Route = DefaultRoute | Bound(engine: Engine)

  /** `get_bind(mapper)`, given the table the mapper persists to: a table
    whose `bind_key` is a string goes to that bind's engine; no mapper, or
    a `bind_key` of `None`, means the default. */
  function GetBind(f: Facade, mapped: Option<Table>, parse: Parser): (o: Outcome<Route>)
    ensures mapped.None? ==> o == Outcome(f, Ok(DefaultRoute))
    ensures mapped.Some? && BindOf(mapped.value) == Some(None) ==> o == Outcome(f, Ok(DefaultRoute))
    ensures mapped.Some? && BindKeyOf(mapped.value).StrVal? ==>
              var e := GetEngine(f, Some(BindKeyOf(mapped.value).s), parse);
              o.f == e.f && (o.r.Ok? <==> e.r.Ok?) && (o.r.Ok? ==> o.r.value == Bound(e.r.value))
  {
    if mapped.None? then Outcome(f, Ok(DefaultRoute))
    else
      match BindKeyOf(mapped.value)
      case NoneVal => Outcome(f, Ok(DefaultRoute))
      case StrVal(k) =>
        var e := GetEngine(f, Some(k), parse);
        Outcome(e.f, if e.r.Ok? then Ok(Bound(e.r.value)) else Err(e.r.error))
      case OtherVal(_) =>
        if !Registered(f) then Outcome(f, Err(if f.adapter.None? then NoAdapter else NotRegistered))
        else Outcome(f, Err(UnknownBindValue))
  }

  /** Sessions route consistently with `get_binds`: once the map is built, a
    query on any table in it goes to the engine the map gives that table,
    with nothing created (a default-bind table goes to `db.engine`, which is
    the same engine). */
  lemma GetBindAgreesWithGetBinds(g: Facade, m: map<Table, Engine>, md: Metadata, binds: seq<Option<string>>, parse: Parser, t: Table)
    requires Keyed(g) && Routes(g, m, md, binds) && t in m
    ensures BindKeyOf(t).StrVal? ==> GetBind(g, Some(t), parse) == Outcome(g, Ok(Bound(m[t])))
    ensures BindKeyOf(t).NoneVal? ==>
              GetBind(g, Some(t), parse) == Outcome(g, Ok(DefaultRoute))
              && GetEngine(g, None, parse) == Outcome(g, Ok(m[t]))
  {
    HitIsCached(g, BindOf(t).value, parse);
  }
}

=== FILE: schema.dfy ===
/** Tables as the adapter sees them: a key and an `info` dictionary whose
  `bind_key` entry says which database the table lives in.  The metadata is
  the ordered collection `metadata.tables` (a dictionary keyed by table key,
  iterated in insertion order).  Also the `db.Table` helper, which makes sure
  every table it builds carries a `bind_key` entry.
 */
module Schema {
  import opened Errors

  /** A value stored in a table's `info` dictionary: `None`, a string, or
    some other object (identified by a token). */
  datatype Value = NoneVal | StrVal(s: string) | OtherVal(id: nat)

  type Info = map<string, Value>

  datatype Table = Table(key: string, info: Info)

  /** `metadata.tables`: tables in insertion order, one per key. */
  type Metadata = seq<Table>

  const BindKeyEntry: string := "bind_key"

  predicate DistinctKeys(md: Metadata)
  {
    forall i, j :: 0 <= i < j < |md| ==> md[i].key != md[j].key
  }

  function Keys(md: Metadata): (ks: set<string>)
    ensures forall t :: t in md ==> t.key in ks
    ensures forall k :: k in ks ==> exists t :: t in md && t.key == k
  {
    set t | t in md :: t.key
  }

  /** A bind key as a value: `None` for the default database. */
  function BindValue(bind: Option<string>): Value
  {
    match bind
    case None => NoneVal
    case Some(k) => StrVal(k)
  }

  /** `table.info.get("bind_key")`. */
  function BindKeyOf(t: Table): Value
  {
    if BindKeyEntry in t.info then t.info[BindKeyEntry] else NoneVal
  }

  /** The test `get_tables_for_bind` applies to each table. */
  predicate BelongsTo(t: Table, bind: Option<string>)
  {
    BindKeyOf(t) == BindValue(bind)
  }

  /** The tables of `md` that belong to `bind`, in metadata order. */
  function TablesFor(md: Metadata, bind: Option<string>): (r: Metadata)
    ensures |r| <= |md|
    ensures forall t :: t in r <==> t in md && BelongsTo(t, bind)
  {
    if md == [] then []
    else (if BelongsTo(md[0], bind) then [md[0]] else []) + TablesFor(md[1..], bind)
  }

  /** Filtering keeps metadata order: it distributes over concatenation. */
  lemma {:induction false} TablesForConcat(a: Metadata, b: Metadata, bind: Option<string>)
    ensures TablesFor(a + b, bind) == TablesFor(a, bind) + TablesFor(b, bind)
  {
    if a != [] {
      assert (a + b)[1..] == a[1..] + b;
      TablesForConcat(a[1..], b, bind);
    } else {
      assert a + b == b;
    }
  }

  /** Every table is returned for exactly one bind key, its own. */
  lemma BindsPartitionTables(t: Table, b1: Option<string>, b2: Option<string>)
    requires BelongsTo(t, b1) && BelongsTo(t, b2)
    ensures b1 == b2
  {
  }

  /** `get_tables_for_bind`: one pass over the metadata collecting the tables
    whose `bind_key` equals `bind`. */
  method GetTablesForBind(md: Metadata, bind: Option<string>) returns (result: Metadata)
    ensures result == TablesFor(md, bind)
  {
    result := [];
    var i := 0;
    while i < |md|
      invariant 0 <= i <= |md|
      invariant result == TablesFor(md[..i], bind)
    {
      assert md[..i + 1] == md[..i] + [md[i]];
      TablesForConcat(md[..i], [md[i]], bind);
      assert TablesFor([md[i]], bind) == (if BelongsTo(md[i], bind) then [md[i]] else []);
      if BelongsTo(md[i], bind) {
        result := result + [md[i]];
      }
      i := i + 1;
    }
    assert md[..i] == md;
  }

  // ---------------------------------------------------------------------
  // db.Table

  /** The positional arguments of a table: its name, columns, constraints,
    a metadata object, or anything else. */
  datatype TableArg =
    | NameArg(name: string)
    | ColumnArg(primaryKey: bool)
    | PrimaryKeyConstraint
    | MetaDataArg
    | OtherArg(id: nat)

  /** What `db.Table` hands to `sqlalchemy.Table`. */
  datatype TableCall = TableCall(args: seq<TableArg>, info: Info)

  /** `info or {}`: `None` (or no `info` argument) and an empty dictionary both become `{}`. */
  function InfoOrEmpty(info: Option<Info>): Info
  {
    match info
    case None => map[]
    case Some(i) => i
  }

  /** `db.Table(*args, info=...)`: when the second argument is a column, the
    facade's metadata is inserted after the name; the `info` dictionary gets
    a `bind_key` entry of `None` unless it already has one. */
  function MakeTable(args: seq<TableArg>, info: Option<Info>): (call: TableCall)
    ensures BindKeyEntry in call.info
    ensures forall k :: k in InfoOrEmpty(info) ==> k in call.info && call.info[k] == InfoOrEmpty(info)[k]
    ensures forall k :: k in call.info && k != BindKeyEntry ==> k in InfoOrEmpty(info)
    ensures BindKeyEntry !in InfoOrEmpty(info) ==> call.info[BindKeyEntry] == NoneVal
    ensures |args| > 1 && args[1].ColumnArg? ==>
              call.args == [args[0], MetaDataArg] + args[1..]
    ensures !(|args| > 1 && args[1].ColumnArg?) ==> call.args == args
  {
    var args' := if |args| > 1 && args[1].ColumnArg? then [args[0], MetaDataArg] + args[1..] else args;
    var i := InfoOrEmpty(info);
    var i' := if BindKeyEntry in i then i else i[BindKeyEntry := NoneVal];
    TableCall(args', i')
  }

  /** A table built through `db.Table` without an explicit bind key is
    returned by `get_tables_for_bind(None)`. */
  lemma MadeTableDefaultsToDefaultBind(key: string, args: seq<TableArg>, info: Option<Info>)
    requires BindKeyEntry !in InfoOrEmpty(info)
    ensures BelongsTo(Table(key, MakeTable(args, info).info), None)
  {
  }

  /** `db.Table` does not add a column or constraint: apart from the inserted
    metadata, the arguments are the caller's, in order. */
  lemma MakeTableKeepsArgs(args: seq<TableArg>, info: Option<Info>)
    ensures forall a :: a in args ==> a in MakeTable(args, info).args
    ensures forall a :: a in MakeTable(args, info).args ==> a in args || a == MetaDataArg
  {
  }
}

=== FILE: snake_case.dfy ===
/** Table-name derivation from a class name (camel_to_snake_case).

  The source rewrites every match of the pattern `([A-Z]+)(?=[a-z0-9])` and
  then strips all leading underscores.  Backtracking never helps that
  pattern (a shorter run of capitals is followed by a capital, which the
  look-ahead refuses), so a match is exactly a MAXIMAL run of ASCII capitals
  whose next character is an ASCII lowercase letter or digit.  A one-letter
  run `X` becomes `_x`; a longer run `XYZW` becomes `_xyz_w`.

  `SubFrom` is the scanning definition (one run at a time, like the regex
  engine); `Rewrite` is an independent, character-by-character reference
  definition; `SubFromIsRewrite` proves they agree.
 */
module SnakeCase {

  predicate IsUpper(c: char) { 'A' <= c <= 'Z' }

  predicate IsLowerOrDigit(c: char) { ('a' <= c <= 'z') || ('0' <= c <= '9') }

  /** `str.lower` on the characters the rewrite lowers (ASCII capitals); other characters are kept. */
  function Lower(c: char): char
  {
    if IsUpper(c) then (c as int + 32) as char else c
  }

  function LowerAll(s: string): (r: string)
    ensures |r| == |s|
    ensures forall i :: 0 <= i < |s| ==> r[i] == Lower(s[i])
  {
    seq(|s|, i requires 0 <= i < |s| => Lower(s[i]))
  }

  /** One past the end of the run of capitals that starts at `k` (`k` itself when `s[k]` is not a capital). */
  function RunEnd(s: string, k: nat): (e: nat)
    requires k <= |s|
    ensures k <= e <= |s|
    ensures e == |s| || !IsUpper(s[e])
    ensures k < |s| && IsUpper(s[k]) ==> k < e
    decreases |s| - k
  {
    if k < |s| && IsUpper(s[k]) then RunEnd(s, k + 1) else k
  }

  lemma {:induction false} RunIsUpper(s: string, k: nat, j: nat)
    requires k <= |s| && k <= j < RunEnd(s, k)
    ensures IsUpper(s[j])
    decreases j - k
  {
    if j > k {
      RunIsUpper(s, k + 1, j);
    }
  }

  /** The look-ahead of the pattern: the character at `e` is a lowercase letter or a digit. */
  predicate FollowedByLowerOrDigit(s: string, e: nat)
  {
    e < |s| && IsLowerOrDigit(s[e])
  }

  /** The replacement for one matched run `w` (the source's `_join`). */
  function Replacement(w: string): string
    requires |w| >= 1
  {
    if |w| > 1 then "_" + LowerAll(w[..|w| - 1]) + "_" + [Lower(w[|w| - 1])]
    else "_" + LowerAll(w)
  }

  /** The substitution applied from index `k` on, one run of capitals at a time. */
  function SubFrom(s: string, k: nat): string
    requires k <= |s|
    decreases |s| - k
  {
    if k == |s| then []
    else if !IsUpper(s[k]) then [s[k]] + SubFrom(s, k + 1)
    else
      var e := RunEnd(s, k);
      (if FollowedByLowerOrDigit(s, e) then Replacement(s[k..e]) else s[k..e]) + SubFrom(s, e)
  }

  /** `lstrip("_")`: drops every leading underscore and nothing else. */
  function StripUnderscores(s: string): (r: string)
    ensures |r| <= |s| && r == s[|s| - |r|..]
    ensures forall i :: 0 <= i < |s| - |r| ==> s[i] == '_'
    ensures r == [] || r[0] != '_'
  {
    if s != [] && s[0] == '_' then StripUnderscores(s[1..]) else s
  }

  /** camel_to_snake_case: the table name derived from a class name. */
  function CamelToSnake(name: string): (r: string)
    ensures r == [] || r[0] != '_'
  {
    StripUnderscores(SubFrom(name, 0))
  }

  // ---------------------------------------------------------------------
  // Character-by-character reference definition

  /** The capital at `i` lies in a run that the pattern rewrites. */
  predicate Rewritten(s: string, i: nat)
    requires i < |s|
  {
    IsUpper(s[i]) && FollowedByLowerOrDigit(s, RunEnd(s, i))
  }

  predicate StartsRun(s: string, i: nat)
    requires i < |s|
  {
    i == 0 || !IsUpper(s[i - 1])
  }

  /** An underscore goes in front of the first letter of a rewritten run and in front of its last letter. */
  predicate UnderscoreBefore(s: string, i: nat)
    requires i < |s|
  {
    Rewritten(s, i) && (StartsRun(s, i) || RunEnd(s, i) == i + 1)
  }

  /** What character `i` of the input turns into. */
  function Piece(s: string, i: nat): string
    requires i < |s|
  {
    (if UnderscoreBefore(s, i) then "_" else "") + [if Rewritten(s, i) then Lower(s[i]) else s[i]]
  }

  function Pieces(s: string, i: nat, j: nat): string
    requires i <= j <= |s|
    decreases j - i
  {
    if i == j then [] else Piece(s, i) + Pieces(s, i + 1, j)
  }

  /** Reference definition of the substitution, before stripping. */
  function Rewrite(s: string): string
  {
    Pieces(s, 0, |s|)
  }

  /** `k` does not fall strictly inside a run of capitals. */
  predicate Boundary(s: string, k: nat)
    requires k <= |s|
  {
    k == 0 || k == |s| || !IsUpper(s[k - 1]) || !IsUpper(s[k])
  }

  lemma {:induction false} RunEndConstant(s: string, k: nat, m: nat)
    requires k <= |s| && k <= m < RunEnd(s, k)
    ensures RunEnd(s, m) == RunEnd(s, k)
    decreases m - k
  {
    if m > k {
      RunEndConstant(s, k + 1, m);
    }
  }

  lemma {:induction false} PiecesSplit(s: string, i: nat, j: nat, k: nat)
    requires i <= j <= k <= |s|
    ensures Pieces(s, i, k) == Pieces(s, i, j) + Pieces(s, j, k)
    decreases j - i
  {
    if i < j {
      PiecesSplit(s, i + 1, j, k);
    }
  }

  lemma {:induction false} PiecesKept(s: string, i: nat, j: nat)
    requires i <= j <= |s|
    requires forall m :: i <= m < j ==> !Rewritten(s, m)
    ensures Pieces(s, i, j) == s[i..j]
    decreases j - i
  {
    if i < j {
      PiecesKept(s, i + 1, j);
      assert s[i..j] == [s[i]] + s[i + 1..j];
    }
  }

  lemma {:induction false} PiecesLowered(s: string, i: nat, j: nat)
    requires i <= j <= |s|
    requires forall m :: i <= m < j ==> Rewritten(s, m) && !UnderscoreBefore(s, m)
    ensures Pieces(s, i, j) == LowerAll(s[i..j])
    decreases j - i
  {
    if i < j {
      PiecesLowered(s, i + 1, j);
      assert Rewritten(s, i) && !UnderscoreBefore(s, i);
      LowerAllCons(s, i, j);
    }
  }

  lemma LowerAllCons(s: string, i: nat, j: nat)
    requires i < j <= |s|
    ensures LowerAll(s[i..j]) == [Lower(s[i])] + LowerAll(s[i + 1..j])
  {
    assert LowerAll(s[i..j]) == [Lower(s[i])] + LowerAll(s[i + 1..j]);
  }

  lemma {:induction false} RunEndAll(s: string, k: nat)
    requires k <= |s|
    ensures forall m :: k <= m < RunEnd(s, k) ==> RunEnd(s, m) == RunEnd(s, k)
  {
    forall m | k <= m < RunEnd(s, k)
      ensures RunEnd(s, m) == RunEnd(s, k)
    {
      RunEndConstant(s, k, m);
    }
  }

  /** Inside a rewritten run, every letter but the first and the last is only lowered. */
  lemma {:induction false} InteriorLowered(s: string, k: nat)
    requires k < |s| && IsUpper(s[k]) && StartsRun(s, k)
    requires FollowedByLowerOrDigit(s, RunEnd(s, k)) && RunEnd(s, k) > k + 1
    ensures forall m :: k + 1 <= m < RunEnd(s, k) - 1 ==> Rewritten(s, m) && !UnderscoreBefore(s, m)
  {
    RunEndAll(s, k);
    forall m | k + 1 <= m < RunEnd(s, k) - 1
      ensures Rewritten(s, m) && !UnderscoreBefore(s, m)
    {
      RunIsUpper(s, k, m - 1);
      RunIsUpper(s, k, m);
    }
  }

  lemma {:induction false} EndPieces(s: string, k: nat)
    requires k < |s| && IsUpper(s[k]) && StartsRun(s, k)
    requires FollowedByLowerOrDigit(s, RunEnd(s, k)) && RunEnd(s, k) > k + 1
    ensures Pieces(s, k, k + 1) == "_" + [Lower(s[k])]
    ensures Pieces(s, RunEnd(s, k) - 1, RunEnd(s, k)) == "_" + [Lower(s[RunEnd(s, k) - 1])]
  {
    var e := RunEnd(s, k);
    RunEndConstant(s, k, e - 1);
    assert Pieces(s, k, k + 1) == Piece(s, k) + Pieces(s, k + 1, k + 1);
    assert Pieces(s, e - 1, e) == Piece(s, e - 1) + Pieces(s, e, e);
  }

  lemma ReplacementOfLong(w: string)
    requires |w| > 1
    ensures Replacement(w) == "_" + [Lower(w[0])] + LowerAll(w[1..|w| - 1]) + "_" + [Lower(w[|w| - 1])]
  {
    assert LowerAll(w[..|w| - 1]) == [Lower(w[0])] + LowerAll(w[1..|w| - 1]);
  }

  lemma SliceOfSlice(s: string, k: nat, e: nat)
    requires k + 1 < e <= |s|
    ensures s[k..e][1..e - k - 1] == s[k + 1..e - 1]
    ensures s[k..e][0] == s[k] && s[k..e][e - k - 1] == s[e - 1]
  {
    var m := s[k..e][1..e - k - 1];
    assert forall i :: 0 <= i < |m| ==> m[i] == s[k + 1 + i];
  }

  lemma {:induction false} ReplacementLong(s: string, k: nat, e: nat)
    requires k + 1 < e <= |s|
    ensures Replacement(s[k..e]) == "_" + [Lower(s[k])] + LowerAll(s[k + 1..e - 1]) + "_" + [Lower(s[e - 1])]
  {
    ReplacementOfLong(s[k..e]);
    SliceOfSlice(s, k, e);
  }

  lemma {:induction false} PiecesThree(s: string, k: nat, e: nat)
    requires k + 1 < e <= |s|
    ensures Pieces(s, k, e) == Pieces(s, k, k + 1) + (Pieces(s, k + 1, e - 1) + Pieces(s, e - 1, e))
  {
    PiecesSplit(s, k, k + 1, e);
    PiecesSplit(s, k + 1, e - 1, e);
    ConcatSubst(Pieces(s, k, e), Pieces(s, k, k + 1), Pieces(s, k + 1, e),
                Pieces(s, k + 1, e - 1), Pieces(s, e - 1, e));
  }

  lemma ConcatSubst(x: string, a: string, y: string, b: string, c: string)
    requires x == a + y && y == b + c
    ensures x == a + (b + c)
  {
  }

  lemma ReplacementShape(x: char, middle: string, y: char)
    ensures ("_" + [x]) + (middle + ("_" + [y])) == "_" + [x] + middle + "_" + [y]
  {
  }

  /** A run of two or more capitals that is rewritten yields its replacement. */
  lemma {:induction false} LongRunBlock(s: string, k: nat)
    requires k < |s| && IsUpper(s[k]) && StartsRun(s, k)
    requires FollowedByLowerOrDigit(s, RunEnd(s, k)) && RunEnd(s, k) > k + 1
    ensures Pieces(s, k, RunEnd(s, k)) == Replacement(s[k..RunEnd(s, k)])
  {
    var e := RunEnd(s, k);
    PiecesThree(s, k, e);
    InteriorLowered(s, k);
    PiecesLowered(s, k + 1, e - 1);
    EndPieces(s, k);
    ReplacementLong(s, k, e);
    ReplacementShape(Lower(s[k]), LowerAll(s[k + 1..e - 1]), Lower(s[e - 1]));
  }

  /** The pieces of one whole run are exactly what the scanner emits for it. */
  lemma {:induction false} RunBlock(s: string, k: nat)
    requires k < |s| && IsUpper(s[k]) && StartsRun(s, k)
    ensures Pieces(s, k, RunEnd(s, k))
         == (if FollowedByLowerOrDigit(s, RunEnd(s, k)) then Replacement(s[k..RunEnd(s, k)]) else s[k..RunEnd(s, k)])
  {
    var e := RunEnd(s, k);
    RunEndAll(s, k);
    if !FollowedByLowerOrDigit(s, e) {
      PiecesKept(s, k, e);
    } else if e == k + 1 {
      assert Pieces(s, k, e) == Piece(s, k) + Pieces(s, e, e);
      assert LowerAll(s[k..e]) == [Lower(s[k])];
    } else {
      LongRunBlock(s, k);
    }
  }

  lemma {:induction false} SubFromIsPieces(s: string, k: nat)
    requires k <= |s| && Boundary(s, k)
    ensures SubFrom(s, k) == Pieces(s, k, |s|)
    decreases |s| - k
  {
    if k == |s| {
    } else if !IsUpper(s[k]) {
      SubFromIsPieces(s, k + 1);
      calc {
        SubFrom(s, k);
        [s[k]] + SubFrom(s, k + 1);
        Piece(s, k) + Pieces(s, k + 1, |s|);
        Pieces(s, k, |s|);
      }
    } else {
      var e := RunEnd(s, k);
      var block := if FollowedByLowerOrDigit(s, e) then Replacement(s[k..e]) else s[k..e];
      RunBlock(s, k);
      PiecesSplit(s, k, e, |s|);
      SubFromIsPieces(s, e);
      calc {
        SubFrom(s, k);
        block + SubFrom(s, e);
        Pieces(s, k, e) + Pieces(s, e, |s|);
        Pieces(s, k, |s|);
      }
    }
  }

  /** The scanning substitution and the character-by-character reference agree on every input. */
  lemma SubFromIsRewrite(s: string)
    ensures SubFrom(s, 0) == Rewrite(s)
    ensures CamelToSnake(s) == StripUnderscores(Rewrite(s))
  {
    SubFromIsPieces(s, 0);
  }

  // ---------------------------------------------------------------------
  // Word by word

  lemma {:induction false} RunEndShift(a: string, b: string, j: nat)
    requires j <= |b|
    ensures RunEnd(a + b, |a| + j) == |a| + RunEnd(b, j)
    decreases |b| - j
  {
    if j < |b| && IsUpper(b[j]) {
      RunEndShift(a, b, j + 1);
    }
  }

  lemma SliceOfConcat(a: string, b: string, i: nat, j: nat)
    requires i <= j <= |b|
    ensures (a + b)[|a| + i..|a| + j] == b[i..j]
    ensures j < |b| ==> (a + b)[|a| + j] == b[j]
  {
  }

  lemma SliceOfConcatLeft(a: string, b: string, i: nat, j: nat)
    requires i <= j <= |a|
    ensures (a + b)[i..j] == a[i..j]
    ensures j < |a| ==> (a + b)[j] == a[j]
  {
  }

  /** The scan of `b` does not depend on what precedes it. */
  lemma {:induction false} SubFromShift(a: string, b: string, j: nat)
    requires j <= |b|
    ensures SubFrom(a + b, |a| + j) == SubFrom(b, j)
    decreases |b| - j
  {
    if j < |b| {
      SliceOfConcat(a, b, j, j);
      if !IsUpper(b[j]) {
        SubFromShift(a, b, j + 1);
      } else {
        var e := RunEnd(b, j);
        RunEndShift(a, b, j);
        SliceOfConcat(a, b, j, e);
        SubFromShift(a, b, e);
      }
    }
  }

  lemma {:induction false} RunEndPrefix(a: string, b: string, k: nat)
    requires k < |a| && !IsUpper(a[|a| - 1])
    ensures RunEnd(a + b, k) == RunEnd(a, k) < |a|
    decreases |a| - k
  {
    if IsUpper(a[k]) {
      RunEndPrefix(a, b, k + 1);
    }
  }

  lemma {:induction false} SubFromConcatFrom(a: string, b: string, k: nat)
    requires k <= |a| && Boundary(a, k)
    requires a == [] || !IsUpper(a[|a| - 1])
    ensures SubFrom(a + b, k) == SubFrom(a, k) + SubFrom(b, 0)
    decreases |a| - k
  {
    if k == |a| {
      SubFromShift(a, b, 0);
    } else {
      SliceOfConcatLeft(a, b, k, k);
      if !IsUpper(a[k]) {
        SubFromConcatFrom(a, b, k + 1);
      } else {
        var e := RunEnd(a, k);
        RunEndPrefix(a, b, k);
        SliceOfConcatLeft(a, b, k, e);
        SubFromConcatFrom(a, b, e);
      }
    }
  }

  /** The rewrite works word by word: it never looks across a point that follows a non-capital. */
  lemma SubFromConcat(a: string, b: string)
    requires a == [] || !IsUpper(a[|a| - 1])
    ensures SubFrom(a + b, 0) == SubFrom(a, 0) + SubFrom(b, 0)
  {
    SubFromConcatFrom(a, b, 0);
  }

  predicate AllUpper(s: string)
  {
    forall i :: 0 <= i < |s| ==> IsUpper(s[i])
  }

  lemma {:induction false} RunEndOfUpperPrefix(run: string, rest: string, k: nat)
    requires k <= |run| && AllUpper(run)
    requires rest == [] || !IsUpper(rest[0])
    ensures RunEnd(run + rest, k) == |run|
    decreases |run| - k
  {
    if k < |run| {
      SliceOfConcatLeft(run, rest, k, k);
      RunEndOfUpperPrefix(run, rest, k + 1);
    } else {
      SliceOfConcat(run, rest, 0, 0);
    }
  }

  /** A run of capitals directly before a word without capitals is replaced, and the word is kept. */
  lemma RunThenWord(run: string, word: string)
    requires |run| >= 1 && AllUpper(run)
    requires word != [] && IsLowerOrDigit(word[0]) && NoUpper(word)
    ensures SubFrom(run + word, 0) == Replacement(run) + word
  {
    var s := run + word;
    RunEndOfUpperPrefix(run, word, 0);
    SliceOfConcatLeft(run, word, 0, |run|);
    SliceOfConcat(run, word, 0, 0);
    assert s[0..|run|] == run;
    SubFromShift(run, word, 0);
    NoMatchFixpoint(word, 0);
  }

  /** A name made only of capitals has nothing for the pattern to match. */
  lemma AllUpperKept(run: string)
    requires AllUpper(run)
    ensures SubFrom(run, 0) == run
  {
    NoMatchFixpoint(run, 0);
  }

  // ---------------------------------------------------------------------
  // Idempotence

  /** No capital is directly followed by a lowercase letter or digit: the pattern finds nothing. */
  predicate NoMatch(s: string)
  {
    forall i :: 0 < i < |s| ==> !(IsUpper(s[i - 1]) && IsLowerOrDigit(s[i]))
  }

  predicate NoUpper(s: string)
  {
    forall i :: 0 <= i < |s| ==> !IsUpper(s[i])
  }

  lemma NoMatchConcat(a: string, b: string)
    requires NoMatch(a) && NoMatch(b)
    requires a == [] || b == [] || !(IsUpper(a[|a| - 1]) && IsLowerOrDigit(b[0]))
    ensures NoMatch(a + b)
  {
    var c := a + b;
    forall i | 0 < i < |c|
      ensures !(IsUpper(c[i - 1]) && IsLowerOrDigit(c[i]))
    {
      if i < |a| {
        assert c[i - 1] == a[i - 1] && c[i] == a[i];
      } else if i == |a| {
        assert c[i - 1] == a[|a| - 1] && c[i] == b[0];
      } else {
        assert c[i - 1] == b[i - 1 - |a|] && c[i] == b[i - |a|];
      }
    }
  }

  lemma ReplacementHasNoUpper(w: string)
    requires |w| >= 1
    ensures NoUpper(Replacement(w))
  {
  }

  /** Whatever the substitution produces contains nothing for the pattern to match. */
  lemma {:induction false} SubFromNoMatch(s: string, k: nat)
    requires k <= |s| && Boundary(s, k)
    ensures NoMatch(SubFrom(s, k))
    ensures k < |s| && !IsUpper(s[k]) ==> SubFrom(s, k)[0] == s[k]
    decreases |s| - k
  {
    if k == |s| {
    } else if !IsUpper(s[k]) {
      SubFromNoMatch(s, k + 1);
      NoMatchConcat([s[k]], SubFrom(s, k + 1));
    } else {
      var e := RunEnd(s, k);
      SubFromNoMatch(s, e);
      if FollowedByLowerOrDigit(s, e) {
        ReplacementHasNoUpper(s[k..e]);
        NoMatchConcat(Replacement(s[k..e]), SubFrom(s, e));
      } else {
        forall j | k <= j < e
          ensures IsUpper(s[j])
        {
          RunIsUpper(s, k, j);
        }
        NoMatchConcat(s[k..e], SubFrom(s, e));
      }
    }
  }

  /** On an input with nothing to match, the substitution is the identity. */
  lemma {:induction false} NoMatchFixpoint(s: string, k: nat)
    requires NoMatch(s) && k <= |s| && Boundary(s, k)
    ensures SubFrom(s, k) == s[k..]
    decreases |s| - k
  {
    if k == |s| {
    } else if !IsUpper(s[k]) {
      NoMatchFixpoint(s, k + 1);
      assert s[k..] == [s[k]] + s[k + 1..];
    } else {
      var e := RunEnd(s, k);
      NoMatchFixpoint(s, e);
      if e < |s| {
        RunIsUpper(s, k, e - 1);
      }
      assert s[k..] == s[k..e] + s[e..];
    }
  }

  /** A name with no capital directly before a lowercase letter or digit is kept as it is,
      e.g. a trailing run such as `ID`, once leading underscores are gone. */
  lemma UnmatchedKept(s: string)
    requires NoMatch(s)
    requires s == [] || s[0] != '_'
    ensures CamelToSnake(s) == s
  {
    NoMatchFixpoint(s, 0);
  }

  /** camel_to_snake_case is idempotent. */
  lemma CamelToSnakeIdempotent(s: string)
    ensures CamelToSnake(CamelToSnake(s)) == CamelToSnake(s)
  {
    SubFromNoMatch(s, 0);
    StrippedNoMatch(SubFrom(s, 0));
    UnmatchedKept(CamelToSnake(s));
  }

  /** Stripping leading underscores cannot create a match. */
  lemma StrippedNoMatch(t: string)
    requires NoMatch(t)
    ensures NoMatch(StripUnderscores(t))
  {
    StripIsSuffix(t);
    NoMatchSuffix(t, |t| - |StripUnderscores(t)|);
  }

  /** Stripping leading underscores leaves a suffix. */
  lemma {:induction false} StripIsSuffix(s: string)
    ensures |StripUnderscores(s)| <= |s|
    ensures StripUnderscores(s) == s[|s| - |StripUnderscores(s)|..]
    decreases |s|
  {
    if s != [] && s[0] == '_' {
      StripIsSuffix(s[1..]);
      var n := |StripUnderscores(s)|;
      assert s[1..][|s| - 1 - n..] == s[|s| - n..];
    } else {
      assert s[|s| - |s|..] == s;
    }
  }

  lemma NoMatchSuffix(t: string, k: nat)
    requires NoMatch(t) && k <= |t|
    ensures NoMatch(t[k..])
  {
    var r := t[k..];
    forall i | 0 < i < |r|
      ensures !(IsUpper(r[i - 1]) && IsLowerOrDigit(r[i]))
    {
      assert r[i - 1] == t[k + i - 1] && r[i] == t[k + i];
    }
  }

  // ---------------------------------------------------------------------
  // Nothing but underscores and case changes

  /** The text lowercased with every underscore removed. */
  function Letters(s: string): string
    decreases |s|
  {
    if s == [] then [] else (if s[0] == '_' then [] else [Lower(s[0])]) + Letters(s[1..])
  }

  lemma {:induction false} LettersConcat(a: string, b: string)
    ensures Letters(a + b) == Letters(a) + Letters(b)
    decreases |a|
  {
    if a != [] {
      var h: string := if a[0] == '_' then [] else [Lower(a[0])];
      assert (a + b)[0] == a[0];
      assert (a + b)[1..] == a[1..] + b;
      LettersConcat(a[1..], b);
      calc {
        Letters(a + b);
        h + Letters(a[1..] + b);
        h + (Letters(a[1..]) + Letters(b));
        (h + Letters(a[1..])) + Letters(b);
        Letters(a) + Letters(b);
      }
    } else {
      assert a + b == b;
    }
  }

  lemma PieceLetters(s: string, i: nat)
    requires i < |s|
    ensures Letters(Piece(s, i)) == Letters([s[i]])
  {
    var c := if Rewritten(s, i) then Lower(s[i]) else s[i];
    var u: string := if UnderscoreBefore(s, i) then "_" else "";
    assert Piece(s, i) == u + [c];
    LettersConcat(u, [c]);
  }

  lemma {:induction false} PiecesLetters(s: string, i: nat, j: nat)
    requires i <= j <= |s|
    ensures Letters(Pieces(s, i, j)) == Letters(s[i..j])
    decreases j - i
  {
    if i < j {
      PiecesLetters(s, i + 1, j);
      LettersConcat(Piece(s, i), Pieces(s, i + 1, j));
      PieceLetters(s, i);
      assert s[i..j] == [s[i]] + s[i + 1..j];
      LettersConcat([s[i]], s[i + 1..j]);
    }
  }

  lemma {:induction false} StripLetters(s: string)
    ensures Letters(StripUnderscores(s)) == Letters(s)
    decreases |s|
  {
    if s != [] && s[0] == '_' {
      StripLetters(s[1..]);
    }
  }

  /** Ignoring case and underscores, the table name spells the class name, letter for letter and in order. */
  lemma CamelToSnakeSameLetters(s: string)
    ensures Letters(CamelToSnake(s)) == Letters(s)
  {
    SubFromIsRewrite(s);
    RewriteLetters(s);
    StripLetters(SubFrom(s, 0));
  }

  lemma RewriteLetters(s: string)
    ensures Letters(Rewrite(s)) == Letters(s)
  {
    PiecesLetters(s, 0, |s|);
    assert s[0..|s|] == s;
  }
}

=== FILE: snake_case_words.dfy ===
/** The table-name rewrite on the shapes class names usually have: a run of
  capitalised words (`MyHappyClass`, `FooBoundModel`) becomes the lowercased
  words joined by `_`, and an acronym before a word (`HTTPServer`) is split
  before its last capital.
 */
module SnakeCaseWords {
  import opened SnakeCase

  /** A capitalised word: one capital, then at least one lowercase letter or
    digit, and no further capital (`My`, `Happy`, `Class`, `Foo`). */
  predicate IsWord(w: string)
  {
    |w| >= 2 && IsUpper(w[0]) && IsLowerOrDigit(w[1]) && NoUpper(w[1..])
  }

  predicate AllWords(ws: seq<string>)
  {
    forall i :: 0 <= i < |ws| ==> IsWord(ws[i])
  }

  /** The class name spelled by a sequence of words. */
  function Join(ws: seq<string>): string
  {
    if ws == [] then [] else ws[0] + Join(ws[1..])
  }

  /** Each word lowercased and preceded by `_`. */
  function UnderscoreWords(ws: seq<string>): string
  {
    if ws == [] then [] else "_" + LowerAll(ws[0]) + UnderscoreWords(ws[1..])
  }

  lemma LowerIsNotUnderscore(c: char)
    requires IsUpper(c)
    ensures Lower(c) != '_' && 'a' <= Lower(c) <= 'z'
  {
  }

  lemma LowerNoUpper(s: string)
    requires NoUpper(s)
    ensures LowerAll(s) == s
  {
  }

  lemma CapitalThenWord(c: char, word: string)
    requires IsUpper(c)
    requires word != [] && IsLowerOrDigit(word[0]) && NoUpper(word)
    ensures SubFrom([c] + word, 0) == ("_" + [Lower(c)]) + word
  {
    RunThenWord([c], word);
    assert LowerAll([c]) == [Lower(c)];
  }

  lemma WordLowered(w: string)
    requires IsWord(w)
    ensures LowerAll(w) == [Lower(w[0])] + w[1..]
  {
    LowerNoUpper(w[1..]);
  }

  lemma WordScanned(w: string)
    requires IsWord(w)
    ensures SubFrom(w, 0) == ("_" + [Lower(w[0])]) + w[1..]
  {
    assert [w[0]] + w[1..] == w;
    CapitalThenWord(w[0], w[1..]);
  }

  /** One capitalised word is rewritten as `_` followed by the word in lowercase. */
  lemma WordRewrite(w: string)
    requires IsWord(w)
    ensures SubFrom(w, 0) == "_" + LowerAll(w)
  {
    WordScanned(w);
    WordLowered(w);
    Assoc("_", [Lower(w[0])], w[1..]);
  }

  lemma {:induction false} WordsRewrite(ws: seq<string>)
    requires AllWords(ws)
    ensures SubFrom(Join(ws), 0) == UnderscoreWords(ws)
  {
    if ws != [] {
      var w := ws[0];
      assert IsWord(w);
      assert AllWords(ws[1..]) by {
        forall i | 0 <= i < |ws[1..]| ensures IsWord(ws[1..][i]) {
          assert ws[1..][i] == ws[i + 1];
        }
      }
      WordsRewrite(ws[1..]);
      assert w[1..][|w| - 2] == w[|w| - 1];
      SubFromConcat(w, Join(ws[1..]));
      WordRewrite(w);
    }
  }

  lemma Assoc(a: string, b: string, c: string)
    ensures (a + b) + c == a + (b + c)
  {
  }

  lemma StripOne(x: string)
    requires x != [] && x[0] != '_'
    ensures StripUnderscores("_" + x) == x
  {
    assert ("_" + x)[1..] == x;
  }

  /** `MyHappyClass` → `my_happy_class`: capitalised words become the
    lowercased words separated by single underscores, with no leading one. */
  lemma CamelToSnakeOfWords(ws: seq<string>)
    requires ws != [] && AllWords(ws)
    ensures CamelToSnake(Join(ws)) == LowerAll(ws[0]) + UnderscoreWords(ws[1..])
  {
    WordsRewrite(ws);
    assert IsWord(ws[0]);
    LowerIsNotUnderscore(ws[0][0]);
    var x := LowerAll(ws[0]) + UnderscoreWords(ws[1..]);
    assert x[0] == Lower(ws[0][0]);
    Assoc("_", LowerAll(ws[0]), UnderscoreWords(ws[1..]));
    assert SubFrom(Join(ws), 0) == "_" + x;
    StripOne(x);
  }

  /** `HTTPServer` → `http_server`: a run of two or more capitals before a
    word without capitals is split before its last capital. */
  lemma CamelToSnakeOfAcronym(run: string, word: string)
    requires |run| >= 2 && AllUpper(run)
    requires word != [] && IsLowerOrDigit(word[0]) && NoUpper(word)
    ensures CamelToSnake(run + word)
         == LowerAll(run[..|run| - 1]) + "_" + [Lower(run[|run| - 1])] + word
  {
    RunThenWord(run, word);
    SplitRunShape(run);
    Assoc("_", SplitRun(run), word);
    SplitRunHead(run, word);
    StripOne(SplitRun(run) + word);
  }

  /** A long run's replacement without its leading underscore. */
  function SplitRun(run: string): string
    requires |run| >= 2
  {
    LowerAll(run[..|run| - 1]) + "_" + [Lower(run[|run| - 1])]
  }

  lemma SplitRunShape(run: string)
    requires |run| >= 2
    ensures Replacement(run) == "_" + SplitRun(run)
  {
  }

  lemma SplitRunHead(run: string, word: string)
    requires |run| >= 2 && AllUpper(run)
    ensures (SplitRun(run) + word)[0] == Lower(run[0]) != '_'
  {
    LowerIsNotUnderscore(run[0]);
  }
}
